=== FILE: README.md ===
# User store of the apartment-manager web application

This project is a Dafny model of the user store behind the login and signup
pages of the apartment-manager web application (`to.grindelf.sprtest`).

The store keeps `User` records: a name, which is the storage key, a plaintext
password and a role (`ADMIN` or `JUST_USER`). It keeps them either in an
SQLite table or in a JSON file. The repository `UserDaoImpl` holds one
*operator* and routes every call by the operator's class:

- The relational operator `SQLOperator` does its own existence checks with
  `SELECT COUNT(*)` queries and generates INSERT and UPDATE statements from
  the record's declared fields.
- For the document operator `JsonOperator`, the repository reads the whole
  list, checks it by a linear scan on the name, changes it in memory and
  writes the whole list back.
- Each operator refuses the other medium's operations with an
  irregular-access error naming its class.

The Spring controller on top always uses the relational store. It turns a
lookup into a view name and a failed lookup or save into a server error.

The model has one module per source file:

- `Exceptions`: the exception classes become one `Error` datatype, and a
  `Result` carries them in place of a throw.
- `UserStatus`, `Users`: the record, its constructors, `equals`, and
  `hashCode` with Java's exact 32-bit `String.hashCode`.
- `Text`: how the SQL builders assemble strings. Items are joined by commas
  and the last character is cut off. A `Split` function reads such a list
  back.
- `SqlOperator`: the table is an abstract value, a list of column names plus
  rows in read order. A row maps column names to stored text, and a missing
  entry is NULL. The module holds the statement shapes, the schema check and
  the five operations.
- `JsonOperator`: the file is abstracted to the list it parses to, or the
  fact that it does not parse, plus whether it can be written.
- `DataOperator`: the two operators as a two-variant `Backend`, with each
  operation dispatched to the variant's implementation.
- `UserDao`: the list routines of the document backend and the
  class-dispatching public operations. A third, unrecognised operator class
  falls through every `instanceof` branch.
- `MainController`: the request handlers.

The store's central invariant is that no two entries share a name. It is
stated for both backends (`UserDao.NamesUnique`), and save, update and
delete are proved to keep it.

## Model


| member | source | states |
|---|---|---|
| Exceptions.IrregularAccessMessage | src/main/java/to/grindelf/sprtest/exceptions/IrregularAccessException.java:13-15 | the message is the lead "This function is not callable from ", then the implementation's class name, then the tail " implementation!" |
| Exceptions.IrregularAccessMessageNamesOperator | src/main/java/to/grindelf/sprtest/exceptions/IrregularAccessException.java:13-15 | equal messages come from the same class name, so the message identifies the refusing operator |
| UserStatus.ToString | src/main/java/to/grindelf/sprtest/domain/UserStatus.java:12-27 | ADMIN encodes as "admin" and JUST_USER as "just_user", each as an if-and-only-if |
| UserStatus.ToStringInjective | src/main/java/to/grindelf/sprtest/domain/UserStatus.java:12-27 | the two constants have different display strings |
| Users.NewUser | src/main/java/to/grindelf/sprtest/domain/User.java:15-19 | keeps name and password; the user is a plain user and not an administrator |
| Users.NamedUser | src/main/java/to/grindelf/sprtest/domain/User.java:27-31 | is the two-argument constructor with the password "no passwd" |
| Users.DefaultUser | src/main/java/to/grindelf/sprtest/domain/User.java:33-37 | name "no name", password "no passwd", role JUST_USER |
| Users.DecodeStatus | src/main/java/to/grindelf/sprtest/domain/User.java:39-44 | exactly "just_user" decodes to JUST_USER; every other string decodes to ADMIN |
| Users.FromColumns | src/main/java/to/grindelf/sprtest/domain/User.java:39-44 | keeps name and password; plain user exactly when the status string is "just_user" |
| Users.DecodeInvertsToString | src/main/java/to/grindelf/sprtest/domain/UserStatus.java:12-27 | decoding a constant's display string gives the constant back |
| Users.ConstructorsAgree | src/main/java/to/grindelf/sprtest/domain/User.java:15-44 | the two-argument constructor equals the string constructor given JUST_USER's display string |
| Users.Equals | src/main/java/to/grindelf/sprtest/domain/User.java:82-87 | two users are equal exactly when they coincide once the role is disregarded |
| Users.EqualsIgnoresStatus | src/main/java/to/grindelf/sprtest/domain/User.java:82-87 | changing either user's role never changes whether they are equal |
| Users.EqualsIsEquivalence | src/main/java/to/grindelf/sprtest/domain/User.java:82-87 | `equals` is reflexive, symmetric and transitive |
| Users.EqualsObject | src/main/java/to/grindelf/sprtest/domain/User.java:83-86 | true exactly for a user with the same name and password; false for null and for non-users |
| Users.IsAdmin | src/main/java/to/grindelf/sprtest/domain/User.java:94-96 | an administrator exactly when the role's stored string is "admin" |
| Users.IsJustUser | src/main/java/to/grindelf/sprtest/domain/User.java:98-100 | a plain user exactly when the role's stored string is "just_user" |
| Users.ExactlyOneRole | src/main/java/to/grindelf/sprtest/domain/User.java:94-100 | exactly one of `isAdmin` and `isJustUser` holds |
| Users.WrapInt | src/main/java/to/grindelf/sprtest/domain/User.java:89-92 | the result is in the signed 32-bit range and congruent to the input modulo 2^32 |
| Users.Utf16 | src/main/java/to/grindelf/sprtest/domain/User.java:89-92 | a basic-plane character is one unit of its own value; any other character is a high then a low surrogate that decode back to it; then the units of the rest follow; every unit fits in 16 bits |
| Users.PolyHash | src/main/java/to/grindelf/sprtest/domain/User.java:89-92 | the hash is always a Java `int` |
| Users.PolyHashIsPolynomialModulo | src/main/java/to/grindelf/sprtest/domain/User.java:89-92 | the wrapped hash equals the unbounded base-31 polynomial of the units modulo 2^32 |
| Users.StringHashCode | src/main/java/to/grindelf/sprtest/domain/User.java:89-92 | a Java `int` congruent modulo 2^32 to the base-31 polynomial over the string's UTF-16 units |
| Users.HashCode | src/main/java/to/grindelf/sprtest/domain/User.java:89-92 | a Java `int` congruent modulo 2^32 to the base-31 polynomial over the UTF-16 units of the name |
| Users.HashCodeDependsOnNameOnly | src/main/java/to/grindelf/sprtest/domain/User.java:89-92 | users with the same name hash alike, whatever their password and role |
| Users.EqualUsersHashAlike | src/main/java/to/grindelf/sprtest/domain/User.java:82-92 | equal users have equal hashes |
| Users.HashCodeSamples | src/main/java/to/grindelf/sprtest/domain/User.java:89-92 | the known values 0, 97 and 3105 of "", "a" and "ab" |
| Text.Terminated | src/main/java/to/grindelf/sprtest/utils/database/SQLOperator.java:281-284 | the builder before its cut is at least one character per item long |
| Text.TerminatedEndsWithComma | src/main/java/to/grindelf/sprtest/utils/database/SQLOperator.java:281-283 | the builder before its cut ends with a comma |
| Text.CommaListCutsTrailingComma | src/main/java/to/grindelf/sprtest/utils/database/SQLOperator.java:281-287 | `setLength(length - 1)` removes exactly the comma after the last item |
| Text.CommaListUnfold | src/main/java/to/grindelf/sprtest/utils/database/SQLOperator.java:281-287 | after the cut, one item is that item, and several are the first, a comma and the rest |
| Text.SplitCommaList | src/main/java/to/grindelf/sprtest/utils/database/SQLOperator.java:281-287 | splitting the cut list at commas gives exactly the items back when no item holds a comma |
| Text.OccurrencesCommaList | src/main/java/to/grindelf/sprtest/utils/database/SQLOperator.java:281-287 | if every item holds a character k times, the list holds it k times per item |
| SqlOperator.RowOf | src/main/java/to/grindelf/sprtest/utils/database/SQLOperator.java:289-309 | the stored row has an entry for exactly the listed columns |
| SqlOperator.MapRow | src/main/java/to/grindelf/sprtest/utils/database/DatabaseDaoUtils.java:15-19 | maps a row exactly when all three user cells are present, keeping name and password and decoding the status |
| SqlOperator.InsertRowRoundTrip | src/main/java/to/grindelf/sprtest/utils/database/SQLOperator.java:293-309 | each INSERT column stores the value bound at its position, and the row maps back to the inserted user |
| SqlOperator.InsertRowCells | src/main/java/to/grindelf/sprtest/utils/database/SQLOperator.java:289-309 | the INSERT stores exactly three cells: the name, the password, and the status as its `toString` string |
| SqlOperator.CountKey | src/main/java/to/grindelf/sprtest/utils/database/SQLOperator.java:126-133 | the count is zero exactly when no row's key cell equals the key |
| SqlOperator.Selected | src/main/java/to/grindelf/sprtest/utils/database/SQLOperator.java:45-58 | the selection holds only matching rows, and as many as the count of the key |
| SqlOperator.SelectedHoldsEveryMatch | src/main/java/to/grindelf/sprtest/utils/database/SQLOperator.java:45-58 | every row whose key column equals the key is in the selection |
| SqlOperator.SelectedCons | src/main/java/to/grindelf/sprtest/utils/database/SQLOperator.java:45-58 | the first row is selected exactly when it matches, ahead of the selection of the rest |
| SqlOperator.Unmatched | src/main/java/to/grindelf/sprtest/utils/database/SQLOperator.java:213-217 | a key-addressed DELETE never adds rows |
| SqlOperator.UnmatchedDropsKey | src/main/java/to/grindelf/sprtest/utils/database/SQLOperator.java:213-217 | a key-addressed DELETE leaves no matching row and removes as many rows as the count |
| SqlOperator.UnmatchedCons | src/main/java/to/grindelf/sprtest/utils/database/SQLOperator.java:213-217 | the first row survives exactly when it does not match, ahead of the survivors of the rest |
| SqlOperator.PartitionByKey | src/main/java/to/grindelf/sprtest/utils/database/SQLOperator.java:213-217 | the deleted and the surviving rows together are the table's rows as a multiset |
| SqlOperator.PartitionStep | src/main/java/to/grindelf/sprtest/utils/database/SQLOperator.java:213-217 | the partition of all rows but the first extends to all rows |
| SqlOperator.UnmatchedAppend | src/main/java/to/grindelf/sprtest/utils/database/SQLOperator.java:213-217 | a DELETE keeps the surviving rows in their order |
| SqlOperator.CountAppend | src/main/java/to/grindelf/sprtest/utils/database/SQLOperator.java:126-133 | counts of a concatenation add up |
| SqlOperator.ValidateSchema | src/main/java/to/grindelf/sprtest/utils/database/SQLOperator.java:234-262 | passes exactly when every declared field is a column; a failure names a missing field and the table |
| SqlOperator.ValidateSchemaReportsFirst | src/main/java/to/grindelf/sprtest/utils/database/SQLOperator.java:254-260 | the mismatch names the first declared field that is not a column |
| SqlOperator.SchemaCheckMonotone | src/main/java/to/grindelf/sprtest/utils/database/SQLOperator.java:252-261 | a missing field always fails the check; extra table columns never make it fail |
| SqlOperator.Placeholders | src/main/java/to/grindelf/sprtest/utils/database/SQLOperator.java:283 | one `?` item per field, and nothing else |
| SqlOperator.InsertShape | src/main/java/to/grindelf/sprtest/utils/database/SQLOperator.java:277-289 | the column list reads back as the declared fields in order, and the value list as one `?` per field |
| SqlOperator.FixedTextHasNoPlaceholder | src/main/java/to/grindelf/sprtest/utils/database/SQLOperator.java:289-332 | none of the fixed words of the INSERT and UPDATE holds a `?` |
| SqlOperator.InsertColumnsPlaceholders | src/main/java/to/grindelf/sprtest/utils/database/SQLOperator.java:281-286 | the cut column list holds no `?` when no field name does |
| SqlOperator.InsertPlaceholdersCount | src/main/java/to/grindelf/sprtest/utils/database/SQLOperator.java:281-287 | the cut value list holds exactly one `?` per field |
| SqlOperator.InsertParameterCount | src/main/java/to/grindelf/sprtest/utils/database/SQLOperator.java:272-289 | the INSERT text (`InsertQuery`: fixed words around the two cut lists) holds exactly one `?` per field when no name holds one |
| SqlOperator.UserInsertBindsEveryPlaceholder | src/main/java/to/grindelf/sprtest/utils/database/SQLOperator.java:289-303 | the user INSERT binds one value per `?`: name, password, then the status's display string |
| SqlOperator.SetColumns | src/main/java/to/grindelf/sprtest/utils/database/SQLOperator.java:325-329 | the SET list holds every non-key field and never the key |
| SqlOperator.Assignments | src/main/java/to/grindelf/sprtest/utils/database/SQLOperator.java:327 | one assignment per SET column |
| SqlOperator.SetClause | src/main/java/to/grindelf/sprtest/utils/database/SQLOperator.java:324-330 | when no field name holds a comma, the cut SET clause reads back as one `column = ?` per non-key field, in order |
| SqlOperator.AssignmentsHaveNoComma | src/main/java/to/grindelf/sprtest/utils/database/SQLOperator.java:327 | no assignment holds a comma when no field name does |
| SqlOperator.UserSetColumns | src/main/java/to/grindelf/sprtest/utils/database/SQLOperator.java:325-329 | for the user fields the SET columns are password, then status |
| SqlOperator.UserSetClauseShape | src/main/java/to/grindelf/sprtest/utils/database/SQLOperator.java:322-332 | the user SET clause reads back as "password = ?" and "status = ?" |
| SqlOperator.AssignmentPlaceholder | src/main/java/to/grindelf/sprtest/utils/database/SQLOperator.java:326-327 | one assignment `column = ?` holds exactly one `?` when the column name holds none |
| SqlOperator.SetClausePlaceholders | src/main/java/to/grindelf/sprtest/utils/database/SQLOperator.java:325-330 | the cut SET clause holds one `?` per non-key field |
| SqlOperator.SetClauseParameterCount | src/main/java/to/grindelf/sprtest/utils/database/SQLOperator.java:325-330 | the user SET clause holds two placeholders |
| SqlOperator.UpdateParameterCount | src/main/java/to/grindelf/sprtest/utils/database/SQLOperator.java:313-332 | the UPDATE text (`UpdateQuery`: fixed words around the SET clause and the key) holds the SET clause's placeholders plus one for the key |
| SqlOperator.UserUpdatePlaceholders | src/main/java/to/grindelf/sprtest/utils/database/SQLOperator.java:325-332 | the user UPDATE holds exactly three placeholders |
| SqlOperator.UserUpdateBindsEveryPlaceholder | src/main/java/to/grindelf/sprtest/utils/database/SQLOperator.java:332-353 | the user UPDATE binds one value per `?`: password, status string, and the key last |
| SqlOperator.NoQuestionMarkInFields | src/main/java/to/grindelf/sprtest/domain/User.java:11-13 | none of the user's field names holds a `?` |
| SqlOperator.NoQuestionMarkInNames | src/main/java/to/grindelf/sprtest/utils/ConstantValues.java:47-73 | neither the table name (lines 47-51) nor the key column (lines 68-73) holds a `?` |
| SqlOperator.AssignLeavesOthers | src/main/java/to/grindelf/sprtest/utils/database/SQLOperator.java:325-353 | a column the SET clause does not name keeps its value or its NULL |
| SqlOperator.UpdatedRowAssigns | src/main/java/to/grindelf/sprtest/utils/database/SQLOperator.java:322-353 | an UPDATE writes the new password and the status as its `toString` string into the row, and no other cell |
| SqlOperator.UpdatedRowReadsBack | src/main/java/to/grindelf/sprtest/utils/database/SQLOperator.java:332-353 | an updated row keeps its key and maps to the new password and role under that key |
| SqlOperator.UpdateRows | src/main/java/to/grindelf/sprtest/utils/database/SQLOperator.java:332-353 | non-matching rows are untouched and matching rows are updated; the row count stays |
| SqlOperator.UpdateKeepsKeyColumn | src/main/java/to/grindelf/sprtest/utils/database/SQLOperator.java:325-329 | no row's key cell changes under an UPDATE |
| SqlOperator.CountPointwise | src/main/java/to/grindelf/sprtest/utils/database/SQLOperator.java:126-133 | row lists that match the key at the same positions have the same count |
| SqlOperator.UpdateKeepsCounts | src/main/java/to/grindelf/sprtest/utils/database/SQLOperator.java:154-178 | an UPDATE leaves every key's count as it was |
| SqlOperator.UnmatchedCounts | src/main/java/to/grindelf/sprtest/utils/database/SQLOperator.java:213-217 | a DELETE never raises a key's count |
| SqlOperator.GetByKey | src/main/java/to/grindelf/sprtest/utils/database/SQLOperator.java:37-66 | without the `users` table, the "no such table" SQL error; NoSuchUser exactly when no row matches; one match gives that row mapped; two or more give an SQL error; a result carries the key as its name; every error is NoSuchUser or an SQL error |
| SqlOperator.MapRows | src/main/java/to/grindelf/sprtest/utils/database/SQLOperator.java:92-94 | succeeds exactly when every row maps, giving each row's user at its position |
| SqlOperator.GetAll | src/main/java/to/grindelf/sprtest/utils/database/SQLOperator.java:78-99 | a database without the `users` table gives the "no such table" SQL error; otherwise every row mapped, in read order, with one user per row, and a failure points at an unmappable row |
| SqlOperator.Post | src/main/java/to/grindelf/sprtest/utils/database/SQLOperator.java:111-140 | the schema check comes first; with it passed, UserAlreadyExists exactly when the key is present, and success when it is absent; a success appends exactly one row, the INSERT row holding the name, the password and the status string, which maps back to the user |
| SqlOperator.Update | src/main/java/to/grindelf/sprtest/utils/database/SQLOperator.java:154-178 | without the `users` table, the "no such table" SQL error; the key count comes before the schema check: NoSuchUser exactly when no row matches; with a match, success exactly when the schema check passes, else its SchemaMismatch; on success non-matching rows are unchanged, and each matching row gets the new password and status string with every other cell kept, so it maps to the new data under the key |
| SqlOperator.Delete | src/main/java/to/grindelf/sprtest/utils/database/SQLOperator.java:193-219 | without the `users` table, the "no such table" SQL error; NoSuchUser exactly when no row matches; success exactly when the key column exists and a row matches; exactly the matching rows go, as a multiset partition |
| SqlOperator.ReadFile | src/main/java/to/grindelf/sprtest/utils/database/SQLOperator.java:370-373 | always an irregular access naming the relational operator |
| SqlOperator.WriteToFile | src/main/java/to/grindelf/sprtest/utils/database/SQLOperator.java:382-385 | always an irregular access naming the relational operator |
| SqlOperator.PostThenGetByKey | src/main/java/to/grindelf/sprtest/utils/database/SQLOperator.java:111-140 | a posted user is found again by its name |
| SqlOperator.OperationsKeepKeysUnique | src/main/java/to/grindelf/sprtest/utils/database/SQLOperator.java:126-131 | post, update and delete keep every key on at most one row |
| SqlOperator.DeleteTwiceFails | src/main/java/to/grindelf/sprtest/utils/database/SQLOperator.java:201-217 | a second delete of the same key fails with NoSuchUser |
| JsonOperator.ReadFile | src/main/java/to/grindelf/sprtest/utils/json/JsonOperator.java:42-49 | the stored list exactly when the file parses; any failure is the JSON read error and nothing else |
| JsonOperator.WriteToFile | src/main/java/to/grindelf/sprtest/utils/json/JsonOperator.java:59-66 | succeeds exactly when the file is writable; any failure is the JSON write error and nothing else |
| JsonOperator.WriteThenRead | src/main/java/to/grindelf/sprtest/utils/json/JsonOperator.java:42-66 | a written list reads back unchanged, order included |
| JsonOperator.WriteOverwrites | src/main/java/to/grindelf/sprtest/utils/json/JsonOperator.java:59-66 | a second write replaces the first entirely |
| JsonOperator.GetByKey | src/main/java/to/grindelf/sprtest/utils/json/JsonOperator.java:82-91 | always an irregular access naming the document operator |
| JsonOperator.GetAll | src/main/java/to/grindelf/sprtest/utils/json/JsonOperator.java:101-108 | always an irregular access naming the document operator |
| JsonOperator.Post | src/main/java/to/grindelf/sprtest/utils/json/JsonOperator.java:118-125 | always an irregular access naming the document operator |
| JsonOperator.Update | src/main/java/to/grindelf/sprtest/utils/json/JsonOperator.java:135-144 | always an irregular access naming the document operator |
| JsonOperator.Delete | src/main/java/to/grindelf/sprtest/utils/json/JsonOperator.java:155-162 | always an irregular access naming the document operator |
| DataOperator.GetByKey | src/main/java/to/grindelf/sprtest/utils/DataOperator.java:66-73 | refused on the document operator; the relational operator's lookup otherwise |
| DataOperator.GetAll | src/main/java/to/grindelf/sprtest/utils/DataOperator.java:83-89 | refused on the document operator; the relational operator's read otherwise |
| DataOperator.Post | src/main/java/to/grindelf/sprtest/utils/DataOperator.java:99-104 | refused on the document operator; the relational insert's outcome otherwise |
| DataOperator.Update | src/main/java/to/grindelf/sprtest/utils/DataOperator.java:115-122 | refused on the document operator; the relational update's outcome otherwise |
| DataOperator.Delete | src/main/java/to/grindelf/sprtest/utils/DataOperator.java:133-138 | refused on the document operator; the relational delete's outcome otherwise |
| DataOperator.ReadFile | src/main/java/to/grindelf/sprtest/utils/DataOperator.java:37-38 | refused on the relational operator; the file's content otherwise |
| DataOperator.WriteToFile | src/main/java/to/grindelf/sprtest/utils/DataOperator.java:47-51 | refused on the relational operator; on the document operator it succeeds exactly when writable, and the data reads back |
| DataOperator.IrregularExactlyWhenUnsupported | src/main/java/to/grindelf/sprtest/utils/DataOperator.java:25-138 | each of the seven operations fails with an irregular access exactly when its operator does not perform it |
| DataOperator.SqlFailuresAreItsOwn | src/main/java/to/grindelf/sprtest/utils/database/SQLOperator.java:37-219 | the relational lookup, read, insert, update and delete never fail with an irregular access |
| DataOperator.MessageNamesTheOperator | src/main/java/to/grindelf/sprtest/exceptions/IrregularAccessException.java:13-15 | the irregular-access messages of the two operators differ |
| UserDao.CheckIfUserExists | src/main/java/to/grindelf/sprtest/auth/UserDaoImpl.java:223-233 | true exactly when some entry has the name |
| UserDao.FirstIndex | src/main/java/to/grindelf/sprtest/auth/UserDaoImpl.java:172-176 | the first position holding the name, or the length exactly when there is none |
| UserDao.FindUser | src/main/java/to/grindelf/sprtest/auth/UserDaoImpl.java:64-74 | the first entry with the name; NoSuchUser exactly when there is none |
| UserDao.AddToList | src/main/java/to/grindelf/sprtest/auth/UserDaoImpl.java:120-124 | UserAlreadyExists exactly when the name is present; otherwise the old list plus the user at the end |
| UserDao.ReplaceFirst | src/main/java/to/grindelf/sprtest/auth/UserDaoImpl.java:169-178 | NoSuchUser exactly when absent; otherwise only the first match is replaced, with length, order and names kept |
| UserDao.RemoveFirst | src/main/java/to/grindelf/sprtest/auth/UserDaoImpl.java:196-205 | NoSuchUser exactly when absent; otherwise exactly the first match goes and the rest keep their order |
| UserDao.ListChangesKeepNamesUnique | src/main/java/to/grindelf/sprtest/auth/UserDaoImpl.java:117-208 | adding, replacing and removing keep names unique |
| UserDao.RemovedNameIsGone | src/main/java/to/grindelf/sprtest/auth/UserDaoImpl.java:193-208 | with unique names, no entry has the name once it has been removed |
| UserDao.DuplicateNamesSurviveOneDelete | src/main/java/to/grindelf/sprtest/auth/UserDaoImpl.java:193-208 | without unique names a second delete can still succeed, so the invariant is needed |
| UserDao.JsonGetUserByName | src/main/java/to/grindelf/sprtest/auth/UserDaoImpl.java:61-75 | an unparsable file gives the JSON read error; otherwise the first entry with the name, or NoSuchUser exactly when there is none |
| UserDao.JsonSave | src/main/java/to/grindelf/sprtest/auth/UserDaoImpl.java:117-127 | an unparsable file gives the read error; UserAlreadyExists exactly when the name is present; success exactly when the file parses, the name is new and the file is writable, and then the file holds the old list plus the user; an unwritable file gives the write error |
| UserDao.JsonUpdate | src/main/java/to/grindelf/sprtest/auth/UserDaoImpl.java:166-181 | an unparsable file gives the read error; NoSuchUser exactly when the name is absent; success exactly when the file parses, holds the name and is writable, and then the file holds the list with the first match replaced |
| UserDao.JsonDelete | src/main/java/to/grindelf/sprtest/auth/UserDaoImpl.java:193-208 | an unparsable file gives the read error; NoSuchUser exactly when the name is absent; success exactly when the file parses, holds the name and is writable, and then the file holds the list without the first match |
| UserDao.GetUserByName | src/main/java/to/grindelf/sprtest/auth/UserDaoImpl.java:33-45 | null for an unrecognised operator; otherwise the backend lookup's user, wrapped, or its error unchanged |
| UserDao.GetAll | src/main/java/to/grindelf/sprtest/auth/UserDaoImpl.java:77-105 | empty for an unrecognised operator; the table's rows or the file's list otherwise |
| UserDao.Save | src/main/java/to/grindelf/sprtest/auth/UserDaoImpl.java:107-140 | no change for an unrecognised operator; otherwise exactly the relational insert's or the document save's outcome on that backend |
| UserDao.Update | src/main/java/to/grindelf/sprtest/auth/UserDaoImpl.java:142-181 | no change for an unrecognised operator; otherwise exactly the relational update's (keyed by the user's name) or the document update's outcome on that backend |
| UserDao.Delete | src/main/java/to/grindelf/sprtest/auth/UserDaoImpl.java:183-221 | no change for an unrecognised operator; otherwise exactly the relational delete's or the document delete's outcome on that backend |
| UserDao.OperationsKeepNamesUnique | src/main/java/to/grindelf/sprtest/auth/UserDaoImpl.java:107-221 | save, update and delete keep names unique on either backend |
| UserDao.FirstIndexPastOldEntries | src/main/java/to/grindelf/sprtest/auth/UserDaoImpl.java:65-70 | an appended new name is first found at the end |
| UserDao.SaveThenGetUserByName | src/main/java/to/grindelf/sprtest/auth/UserDaoImpl.java:33-140 | a saved user is found again by its name on either backend |
| UserDao.DeleteTwiceFails | src/main/java/to/grindelf/sprtest/auth/UserDaoImpl.java:183-221 | with unique names a second delete of a name fails with NoSuchUser on either backend |
| UserDao.SaveExistingFails | src/main/java/to/grindelf/sprtest/auth/UserDaoImpl.java:107-140 | saving a name already present fails with UserAlreadyExists on either backend |
| MainController.Login | src/main/java/to/grindelf/sprtest/MainController.java:30-53 | a failed lookup is a server error carrying the cause; the right password gives "home" for a plain user and "home-admin" for an administrator; a wrong password gives "login" |
| MainController.Signup | src/main/java/to/grindelf/sprtest/MainController.java:60-75 | either "login" with the returned table exactly the insert's result, in which the user is stored as a plain user under the name, or a server error with the insert's error and the table unchanged |
| MainController.Handle | src/main/java/to/grindelf/sprtest/MainController.java:20-75 | `/` redirects to `/login` for every method; GET on the two pages shows their views; a login form is the login handler's answer with the table kept; a signup form is the signup handler's answer and table; any other path has no handler; only a signup form changes the table |
| MainController.RootLandsOnLoginPage | src/main/java/to/grindelf/sprtest/MainController.java:20-28 | `/` redirects, and following the redirect shows the login view |
| MainController.SignupThenLogin | src/main/java/to/grindelf/sprtest/MainController.java:36-71 | after a signup, logging in with the same pair reaches "home" |
| MainController.SecondSignupFails | src/main/java/to/grindelf/sprtest/MainController.java:43-73 | after a signup, a second signup of the name is a server error for UserAlreadyExists that keeps the table, and another password gives "login" |
| MainController.UnknownNameEscalates | src/main/java/to/grindelf/sprtest/MainController.java:40-50 | a login for an absent name is a server error for NoSuchUser and never a view |

## Left out

- JDBC and SQLite: connections, prepared statements and try-with-resources. The table is an abstract column list plus rows in read order, and a statement's effect is stated on those rows. The order of a `SELECT` without `ORDER BY` is taken to be the stored order.
- A query on a table without the key column is modelled as an SQL error ("no such column"). The Java code passes such an error through unchanged.
- A database without the `users` table is the table with no columns (SQLite has no column-less tables). The program never creates the table. On it, reading all users gives "no such table". The schema check refuses an insert, since the metadata lists no columns. Looking up, updating or deleting by key gives "no such table" as well.
- Column names are matched exactly, both in the key lookups and when a row is read back by column name. SQLite and JDBC match them without regard to case; only the schema check compares them exactly. A table that declares the user columns in another case (`NAME`, say) is outside the model, where lookups, updates and deletes on it fail with the SQL error above. The program's own table uses the lowercase names.
- SqlOperator.MapRow: a NULL cell makes the mapping fail with an SQL error. `ResultSet.getString` would give a Java `null` field instead, and a null status would decode to ADMIN. Null strings are not modelled anywhere.
- Java reflection: the declared fields of `User` are the fixed list name, password, status, in that order, and the key column is the first of them.
- SqlOperator.InsertQuery requires at least one field and SqlOperator.UpdateQuery at least one non-key field. With none, the builders' `setLength(-1)` would throw, and that exception is not modelled.
- JsonOperator.WriteThenRead: the round trip through the file is assumed from the stored-list abstraction, not established. Whether Jackson reads back what it writes for `User` is not modelled; its serialisation of the `isAdmin`/`isJustUser` getters as extra properties may make the read fail. `UserDao.SaveThenGetUserByName` and `UserDao.DeleteTwiceFails` rest on the same assumption for the document backend.
- Jackson serialisation and file I/O: the file is abstracted to the list it parses to, or the fact that it does not parse, plus whether it can be written. A failed write is taken to leave the file as it was.
- `e.printStackTrace()` in the document operator and other console output.
- Spring: routing beyond the five mapped handlers, view rendering, request-parameter binding and the conversion of a `RuntimeException` into an HTTP 500 response. `MainController.Handle` answers `NoHandler` for any other path.
- The controller's `SQLException` wrapping inside `UserDaoImpl`: it is a `RuntimeException` in Java and an `Err` carrying `SqlFailure` here. Both end as a server error.
- UserDao.GetAll and UserDao.GetUserByName: for the relational backend an `SQLException` is wrapped in a `RuntimeException`. The model keeps the underlying error instead of a separate wrapper constructor.
- `User.toString`, the getters and setters, and the `UserDao` and `RowMapper` interfaces carry no logic beyond what is modelled.
- The desktop constants and the bookings table in `ConstantValues`.
- Concurrency: the count-then-act checks race with other writers. Nothing in the code guards against that, and the model is sequential.

=== FILE: data_operator.dfy ===
/**
 The storage abstraction: one interface, two operators. Each operator
 performs only the operations of its medium; calling any other operation
 on it fails with an irregular-access error naming the operator's class.
 */
module DataOperator {
  import opened Exceptions
  import opened Users
  import SqlOperator
  import JsonOperator

  datatype Backend = Sql(table: SqlOperator.Table) | Json(file: JsonOperator.JsonFile)

  datatype Operation = GetByKeyOp | GetAllOp | PostOp | UpdateOp | DeleteOp | ReadFileOp | WriteToFileOp

  /** The class an irregular-access error on `b` names. */
  function ClassName(b: Backend): string {
    if b.Sql? then SqlOperatorClass else JsonOperatorClass
  }

  /** The relational operator performs the key-addressed operations, the
      document operator reading and writing the whole file. */
  predicate Supports(b: Backend, op: Operation) {
    b.Sql? <==> !(op.ReadFileOp? || op.WriteToFileOp?)
  }

  function GetByKey(b: Backend, key: string): (r: Result<Users.User>)
    ensures !Supports(b, GetByKeyOp) ==> r == Err(IrregularAccess(ClassName(b)))
    ensures b.Sql? ==> r == SqlOperator.GetByKey(b.table, key)
  {
    match b
    case Sql(t) => SqlOperator.GetByKey(t, key)
    case Json(_) => JsonOperator.GetByKey()
  }

  function GetAll(b: Backend): (r: Result<seq<User>>)
    ensures !Supports(b, GetAllOp) ==> r == Err(IrregularAccess(ClassName(b)))
    ensures b.Sql? ==> r == SqlOperator.GetAll(b.table)
  {
    match b
    case Sql(t) => SqlOperator.GetAll(t)
    case Json(_) => JsonOperator.GetAll()
  }

  function Post(b: Backend, u: User): (r: Result<Backend>)
    ensures !Supports(b, PostOp) ==> r == Err(IrregularAccess(ClassName(b)))
    ensures b.Sql? ==> r.Ok? == SqlOperator.Post(b.table, u).Ok?
    ensures b.Sql? && r.Ok? ==> r.value == Sql(SqlOperator.Post(b.table, u).value)
    ensures b.Sql? && r.Err? ==> r.error == SqlOperator.Post(b.table, u).error
  {
    match b
    case Sql(t) =>
      (match SqlOperator.Post(t, u)
       case Ok(t') => Ok(Sql(t'))
       case Err(e) => Err(e))
    case Json(_) =>
      (match JsonOperator.Post()
       case Ok(f') => Ok(Json(f'))
       case Err(e) => Err(e))
  }

  function Update(b: Backend, key: string, u: User): (r: Result<Backend>)
    ensures !Supports(b, UpdateOp) ==> r == Err(IrregularAccess(ClassName(b)))
    ensures b.Sql? ==> r.Ok? == SqlOperator.Update(b.table, key, u).Ok?
    ensures b.Sql? && r.Ok? ==> r.value == Sql(SqlOperator.Update(b.table, key, u).value)
    ensures b.Sql? && r.Err? ==> r.error == SqlOperator.Update(b.table, key, u).error
  {
    match b
    case Sql(t) =>
      (match SqlOperator.Update(t, key, u)
       case Ok(t') => Ok(Sql(t'))
       case Err(e) => Err(e))
    case Json(_) =>
      (match JsonOperator.Update()
       case Ok(f') => Ok(Json(f'))
       case Err(e) => Err(e))
  }

  function Delete(b: Backend, key: string): (r: Result<Backend>)
    ensures !Supports(b, DeleteOp) ==> r == Err(IrregularAccess(ClassName(b)))
    ensures b.Sql? ==> r.Ok? == SqlOperator.Delete(b.table, key).Ok?
    ensures b.Sql? && r.Ok? ==> r.value == Sql(SqlOperator.Delete(b.table, key).value)
    ensures b.Sql? && r.Err? ==> r.error == SqlOperator.Delete(b.table, key).error
  {
    match b
    case Sql(t) =>
      (match SqlOperator.Delete(t, key)
       case Ok(t') => Ok(Sql(t'))
       case Err(e) => Err(e))
    case Json(_) =>
      (match JsonOperator.Delete()
       case Ok(f') => Ok(Json(f'))
       case Err(e) => Err(e))
  }

  function ReadFile(b: Backend): (r: Result<seq<User>>)
    ensures !Supports(b, ReadFileOp) ==> r == Err(IrregularAccess(ClassName(b)))
    ensures b.Json? ==> r == JsonOperator.ReadFile(b.file)
  {
    match b
    case Sql(_) => SqlOperator.ReadFile()
    case Json(f) => JsonOperator.ReadFile(f)
  }

  function WriteToFile(b: Backend, data: seq<User>): (r: Result<Backend>)
    ensures !Supports(b, WriteToFileOp) ==> r == Err(IrregularAccess(ClassName(b)))
    ensures b.Json? ==> r.Ok? == b.file.writable
    ensures b.Json? && r.Ok? ==> r.value.Json? && JsonOperator.ReadFile(r.value.file) == Ok(data)
  {
    match b
    case Sql(_) =>
      (match SqlOperator.WriteToFile(data)
       case Ok(t') => Ok(Sql(t'))
       case Err(e) => Err(e))
    case Json(f) =>
      (match JsonOperator.WriteToFile(f, data)
       case Ok(f') => Ok(Json(f'))
       case Err(e) => Err(e))
  }

  /** A result produced by an irregular access. */
  predicate Irregular<T>(r: Result<T>) {
    r.Err? && r.error.IrregularAccess?
  }

  /** An operation fails with an irregular access exactly when its operator
      does not perform it: the operations an operator supports report only
      their own failures. */
  lemma IrregularExactlyWhenUnsupported(b: Backend, key: string, u: User, data: seq<User>)
    ensures Irregular(GetByKey(b, key)) <==> !Supports(b, GetByKeyOp)
    ensures Irregular(GetAll(b)) <==> !Supports(b, GetAllOp)
    ensures Irregular(Post(b, u)) <==> !Supports(b, PostOp)
    ensures Irregular(Update(b, key, u)) <==> !Supports(b, UpdateOp)
    ensures Irregular(Delete(b, key)) <==> !Supports(b, DeleteOp)
    ensures Irregular(ReadFile(b)) <==> !Supports(b, ReadFileOp)
    ensures Irregular(WriteToFile(b, data)) <==> !Supports(b, WriteToFileOp)
  {
    if b.Sql? {
      SqlFailuresAreItsOwn(b.table, key, u);
    }
  }

  /** The relational operations fail only with lookup, schema and database
      errors. */
  lemma SqlFailuresAreItsOwn(t: SqlOperator.Table, key: string, u: User)
    ensures !Irregular(SqlOperator.GetByKey(t, key))
    ensures !Irregular(SqlOperator.GetAll(t))
    ensures !Irregular(SqlOperator.Post(t, u))
    ensures !Irregular(SqlOperator.Update(t, key, u))
    ensures !Irregular(SqlOperator.Delete(t, key))
  {
  }

  /** The message of an irregular access tells the two operators apart. */
  lemma MessageNamesTheOperator(b: Backend, b': Backend)
    requires b.Sql? != b'.Sql?
    ensures IrregularAccessMessage(ClassName(b)) != IrregularAccessMessage(ClassName(b'))
  {
    assert |SqlOperatorClass| == 46 && |JsonOperatorClass| == 43;
    IrregularAccessMessageNamesOperator(ClassName(b), ClassName(b'));
  }
}

=== FILE: exceptions.dfy ===
/**
 The failure signals of the user store: one constructor per exception the
 storage layer throws, and the `Result` type that carries them in place of
 Java's exceptions.
 */
module Exceptions {

  /** Class names as `getClass().getName()` reports them; an irregular-access
      error names the operator it was raised on. */
  const SqlOperatorClass: string := "to.grindelf.sprtest.utils.database.SQLOperator"
  const JsonOperatorClass: string := "to.grindelf.sprtest.utils.json.JsonOperator"

  datatype Error =
    | NoSuchUser                                  // NoSuchUserException
    | UserAlreadyExists                           // UserAlreadyExistsException
    | IrregularAccess(implementation: string)     // operation not callable on this operator
    | JsonFailure(message: string)                // JSONException: file unreadable or unwritable
    | SqlFailure(message: string)                 // SQLException, including a duplicate key
    | SchemaMismatch(field: string, table: string) // IllegalArgumentException of the schema check
  {
    /** The two signals meant for the repository's caller; every other
        error is a wiring or I/O fault that is escalated. */
    predicate IsDomainSignal() {
      NoSuchUser? || UserAlreadyExists?
    }
  }

  /** The message an `IrregularAccessException` carries: the class name sits
      between a fixed 35-character lead and a fixed 16-character tail. */
  function IrregularAccessMessage(implementation: string): (m: string)
    ensures |m| == 35 + |implementation| + 16
    ensures m[35..35 + |implementation|] == implementation
    ensures m[..35] == "This function is not callable from "
    ensures m[35 + |implementation|..] == " implementation!"
  {
    "This function is not callable from " + implementation + " implementation!"
  }

  /** Distinct operators give distinct messages, so the message tells which
      operator refused the call. */
  lemma IrregularAccessMessageNamesOperator(a: string, b: string)
    ensures IrregularAccessMessage(a) == IrregularAccessMessage(b) ==> a == b
  {
    if IrregularAccessMessage(a) == IrregularAccessMessage(b) {
      assert |a| == |b|;
    }
  }

  datatype Result<T> = Ok(value: T) | Err(error: Error)

  /** The outcome of a check that produces no value. */
  datatype Outcome = Pass | Fail(error: Error)
}

=== FILE: json_operator.dfy ===
/**
 The document backend: the whole user collection lives in one JSON file
 that is read whole and overwritten whole. The file is abstracted to the
 list it parses to (or the fact that it does not parse) and to whether the
 environment lets it be written; Jackson's byte format is not modelled.
 */
module JsonOperator {
  import opened Exceptions
  import opened Users

  datatype Document = Parsed(users: seq<User>) | Unparsable

  datatype JsonFile = JsonFile(document: Document, writable: bool)

  const ReadErrorMessage: string := "Error occurred while reading from file"
  const WriteErrorMessage: string := "Error occurred while writing to file"

  /** `readFile`: the list the file holds; any read or parse failure becomes
      a JSON error and nothing else. */
  function ReadFile(f: JsonFile): (r: Result<seq<User>>)
    ensures r.Ok? <==> f.document.Parsed?
    ensures r.Ok? ==> r.value == f.document.users
    ensures r.Err? ==> r.error == JsonFailure(ReadErrorMessage)
  {
    match f.document
    case Parsed(users) => Ok(users)
    case Unparsable => Err(JsonFailure(ReadErrorMessage))
  }

  /** `writeToFile`: replaces the whole content in one shot; a write failure
      becomes a JSON error and nothing else. */
  function WriteToFile(f: JsonFile, data: seq<User>): (r: Result<JsonFile>)
    ensures r.Ok? <==> f.writable
    ensures r.Ok? ==> r.value.writable
    ensures r.Err? ==> r.error == JsonFailure(WriteErrorMessage)
  {
    if f.writable then Ok(f.(document := Parsed(data)))
    else Err(JsonFailure(WriteErrorMessage))
  }

  /** Writing a collection and reading it back yields the same sequence,
      order included. */
  lemma WriteThenRead(f: JsonFile, data: seq<User>)
    requires f.writable
    ensures WriteToFile(f, data).Ok?
    ensures ReadFile(WriteToFile(f, data).value) == Ok(data)
  {
  }

  /** A second write replaces the first entirely. */
  lemma WriteOverwrites(f: JsonFile, first: seq<User>, second: seq<User>)
    requires f.writable
    ensures WriteToFile(WriteToFile(f, first).value, second) == WriteToFile(f, second)
  {
  }

  // The relational operations are not callable on the document operator.

  function GetByKey(): (r: Result<User>)
    ensures r == Err(IrregularAccess(JsonOperatorClass))
  {
    Err(IrregularAccess(JsonOperatorClass))
  }

  function GetAll(): (r: Result<seq<User>>)
    ensures r == Err(IrregularAccess(JsonOperatorClass))
  {
    Err(IrregularAccess(JsonOperatorClass))
  }

  function Post(): (r: Result<JsonFile>)
    ensures r == Err(IrregularAccess(JsonOperatorClass))
  {
    Err(IrregularAccess(JsonOperatorClass))
  }

  function Update(): (r: Result<JsonFile>)
    ensures r == Err(IrregularAccess(JsonOperatorClass))
  {
    Err(IrregularAccess(JsonOperatorClass))
  }

  function Delete(): (r: Result<JsonFile>)
    ensures r == Err(IrregularAccess(JsonOperatorClass))
  {
    Err(IrregularAccess(JsonOperatorClass))
  }
}

=== FILE: main_controller.dfy ===
/**
 The HTTP controller: login and signup over a repository that is always
 wired to the relational operator. A lookup or save failure is wrapped in
 a runtime exception, which the model shows as a server error carrying the
 cause.
 */
module MainController {
  import opened Exceptions
  import opened Users
  import SqlOperator
  import opened DataOperator
  import opened UserDao

  const RootPath: string := "/"
  const LoginPath: string := "/login"
  const SignupPath: string := "/signup"

  const LoginView: string := "login"
  const SignupView: string := "signup"
  const HomeView: string := "home"
  const AdminHomeView: string := "home-admin"

  datatype Request =
    | GetRequest(path: string)
    | FormRequest(path: string, name: string, password: string)   // POST with the two form fields

  datatype Response =
    | View(view: string)
    | Redirect(url: string)
    | ServerError(cause: Error)
    | NoHandler

  /** Every request builds a fresh repository over the relational operator. */
  function Repository(t: SqlOperator.Table): Configured {
    Known(Sql(t))
  }

  function RedirectToLogin(): Response {
    Redirect(LoginPath)
  }

  /** `POST /login`: the stored user must equal the login user built from the
      form. Since equality ignores the role, a stored administrator passes too
      and is sent to the administrator's landing view. */
  function Login(t: SqlOperator.Table, name: string, password: string): (r: Response)
    ensures var found := SqlOperator.GetByKey(t, name);
            && (found.Err? ==> r == ServerError(found.error))
            && (found.Ok? && found.value.password == password && IsJustUser(found.value) ==> r == View(HomeView))
            && (found.Ok? && found.value.password == password && IsAdmin(found.value) ==> r == View(AdminHomeView))
            && (found.Ok? && found.value.password != password ==> r == View(LoginView))
  {
    var loginUser := NewUser(name, password);
    match GetUserByName(Repository(t), name)
    case Err(e) => ServerError(e)
    case Ok(Null) => assert false; View(LoginView)
    case Ok(NonNull(stored)) =>
      if Equals(stored, loginUser) && IsJustUser(stored) then View(HomeView)
      else if Equals(stored, loginUser) && IsAdmin(stored) then View(AdminHomeView)
      else View(LoginView)
  }

  /** `POST /signup`: saves a plain user with the form's name and password and
      shows the login view; the table is returned with the response. */
  function Signup(t: SqlOperator.Table, name: string, password: string): (r: (Response, SqlOperator.Table))
    ensures r.0 == View(LoginView) || (r.0.ServerError? && r.1 == t)
    ensures r.0 == View(LoginView) ==>
      SqlOperator.GetByKey(r.1, name) == Ok(User(name, password, UserStatus.JustUser))
    ensures r.0 == View(LoginView) ==> SqlOperator.Post(t, NewUser(name, password)) == Ok(r.1)
    ensures r.0.ServerError? ==> SqlOperator.Post(t, NewUser(name, password)) == Err(r.0.cause)
  {
    match Save(Repository(t), NewUser(name, password))
    case Ok(c) =>
      SaveThenGetUserByName(Repository(t), NewUser(name, password));
      (View(LoginView), c.backend.table)
    case Err(e) => (ServerError(e), t)
  }

  /** The request mapping. `/` is mapped for every method. */
  function Handle(t: SqlOperator.Table, req: Request): (r: (Response, SqlOperator.Table))
    ensures r.1 != t ==> req.FormRequest? && req.path == SignupPath
    ensures req.path == RootPath ==> r.0 == Redirect(LoginPath)
    ensures req.path != RootPath && req.path != LoginPath && req.path != SignupPath ==> r.0 == NoHandler
    ensures req.GetRequest? && req.path == LoginPath ==> r.0 == View(LoginView)
    ensures req.GetRequest? && req.path == SignupPath ==> r.0 == View(SignupView)
    ensures req.FormRequest? && req.path == LoginPath ==> r == (Login(t, req.name, req.password), t)
    ensures req.FormRequest? && req.path == SignupPath ==> r == Signup(t, req.name, req.password)
  {
    if req.path == RootPath then (RedirectToLogin(), t)
    else if req.path == LoginPath then
      (if req.GetRequest? then (View(LoginView), t) else (Login(t, req.name, req.password), t))
    else if req.path == SignupPath then
      (if req.GetRequest? then (View(SignupView), t) else Signup(t, req.name, req.password))
    else (NoHandler, t)
  }

  /** `/` always redirects, and the redirect lands on the login page. */
  lemma RootLandsOnLoginPage(t: SqlOperator.Table, req: Request)
    requires req.path == RootPath
    ensures Handle(t, req).0.Redirect?
    ensures Handle(t, GetRequest(Handle(t, req).0.url)) == (View(LoginView), t)
  {
  }

  /** Signing up and then logging in with the same pair reaches the plain
      user's landing view. */
  lemma SignupThenLogin(t: SqlOperator.Table, name: string, password: string)
    requires Signup(t, name, password).0 == View(LoginView)
    ensures Login(Signup(t, name, password).1, name, password) == View(HomeView)
  {
  }

  /** After a signup, a second signup with the same name fails with
      UserAlreadyExists and leaves the table unchanged, and a login with
      another password is sent back to the login view. */
  lemma SecondSignupFails(t: SqlOperator.Table, name: string, password: string, other: string)
    requires Signup(t, name, password).0 == View(LoginView)
    ensures var t' := Signup(t, name, password).1;
            Signup(t', name, other) == (ServerError(UserAlreadyExists), t')
    ensures other != password ==> Login(Signup(t, name, password).1, name, other) == View(LoginView)
  {
    var t' := Signup(t, name, password).1;
    var u := NewUser(name, password);
    assert SqlOperator.Post(t, u).Ok?;
    assert t' == SqlOperator.Post(t, u).value;
    assert SqlOperator.KeyColumn == SqlOperator.UserFields[0];
    var v := NewUser(name, other);
    assert SqlOperator.ValidateSchema(SqlOperator.UserFields, t'.columns, SqlOperator.UsersTable).Pass?;
    assert SqlOperator.CountKey(t'.rows, v.name) == 1;
  }

  /** A login for a name the table does not hold never yields a view. */
  lemma UnknownNameEscalates(t: SqlOperator.Table, name: string, password: string)
    requires SqlOperator.KeyColumn in t.columns
    requires SqlOperator.CountKey(t.rows, name) == 0
    ensures Login(t, name, password) == ServerError(NoSuchUser)
  {
  }
}

=== FILE: sql_operator.dfy ===
/**
 The relational backend over the `users` table. The table is an abstract
 value: its column names (what the schema metadata reports) and its rows
 in read order. A row maps column names to stored text; a column with no
 entry in a row holds NULL.
 */
module SqlOperator {
  import opened Exceptions
  import opened UserStatus
  import opened Users
  import Text

  /** The declared fields of `User`, in declaration order, as reflection
      lists them; each must also be a column of the table. */
  const UserFields: seq<string> := ["name", "password", "status"]
  /** The key column: the first of the user columns. */
  const KeyColumn: string := "name"
  const UsersTable: string := "users"

  type Row = map<string, string>

  datatype Table = Table(columns: seq<string>, rows: seq<Row>)

  function NoSuchColumnMessage(column: string): string {
    "no such column: " + column
  }

  function InconsistencyMessage(key: string): string {
    "Database inconsistency: multiple rows found for key " + key
  }

  const NullCellMessage: string := "NULL cell in a mapped row"

  function NoSuchTableMessage(table: string): string {
    "no such table: " + table
  }

  /** What SQLite reports for a query naming the key column when the table
      lacks it: a table with no columns is no table at all. */
  function MissingKeyColumn(t: Table): (e: Error)
    ensures e.SqlFailure?
  {
    if t.columns == [] then SqlFailure(NoSuchTableMessage(UsersTable))
    else SqlFailure(NoSuchColumnMessage(KeyColumn))
  }

  // ---------------------------------------------------------------------
  // Binding the fields of a user
  // ---------------------------------------------------------------------

  /** The value bound for field `f` of `u`; the enum field is bound as its
      `toString` form. */
  function FieldValue(u: User, f: string): string
    requires f in UserFields
  {
    if f == "name" then u.name
    else if f == "password" then u.password
    else ToString(u.status)
  }

  /** The values bound for `fields`, one per field, in order. */
  function Bindings(u: User, fields: seq<string>): (vs: seq<string>)
    requires forall i :: 0 <= i < |fields| ==> fields[i] in UserFields
  {
    seq(|fields|, i requires 0 <= i < |fields| => FieldValue(u, fields[i]))
  }

  function InsertBindings(u: User): seq<string> {
    Bindings(u, UserFields)
  }

  /** The row a statement stores when it gives `columns` the `values` at
      the same positions. */
  function RowOf(columns: seq<string>, values: seq<string>): (row: Row)
    requires |columns| == |values|
    ensures forall c :: c in row <==> c in columns
  {
    if columns == [] then map[]
    else RowOf(columns[1..], values[1..])[columns[0] := values[0]]
  }

  /** The row an INSERT of `u` stores. */
  function InsertRow(u: User): Row {
    RowOf(UserFields, InsertBindings(u))
  }

  /** `DatabaseDaoUtils.userMapper`: reads the three user columns of a row
      and decodes the status string. */
  function MapRow(row: Row): (r: Result<User>)
    ensures r.Ok? <==> "name" in row && "password" in row && "status" in row
    ensures r.Ok? ==> r.value.name == row["name"] && r.value.password == row["password"]
    ensures r.Ok? ==> (IsJustUser(r.value) <==> row["status"] == "just_user")
    ensures r.Err? ==> r.error.SqlFailure?
  {
    if "name" in row && "password" in row && "status" in row then
      Ok(FromColumns(row["name"], row["password"], row["status"]))
    else
      Err(SqlFailure(NullCellMessage))
  }

  /** The inserted row holds exactly the three user cells, the status as
      its `toString` form. */
  lemma InsertRowCells(u: User)
    ensures InsertRow(u) == map["name" := u.name, "password" := u.password, "status" := ToString(u.status)]
  {
    var vs := InsertBindings(u);
    assert vs == [u.name, u.password, ToString(u.status)];
    assert UserFields[1..] == ["password", "status"] && vs[1..] == [u.password, ToString(u.status)];
    assert UserFields[2..] == ["status"] && vs[2..] == [ToString(u.status)];
    assert ["status"][1..] == [] && [ToString(u.status)][1..] == [];
    var r2 := RowOf(["status"], [ToString(u.status)]);
    assert r2 == map["status" := ToString(u.status)];
    var r1 := RowOf(["password", "status"], [u.password, ToString(u.status)]);
    assert r1 == r2["password" := u.password];
  }

  /** The inserted row stores each column of the INSERT list with the value
      bound at the same position, and reads back as the user inserted. */
  lemma InsertRowRoundTrip(u: User)
    ensures forall i :: 0 <= i < |UserFields| ==>
      UserFields[i] in InsertRow(u) && InsertRow(u)[UserFields[i]] == InsertBindings(u)[i]
    ensures MapRow(InsertRow(u)) == Ok(u)
  {
    InsertRowCells(u);
    assert InsertBindings(u) == [u.name, u.password, ToString(u.status)];
    DecodeInvertsToString(u.status);
  }

  // ---------------------------------------------------------------------
  // Rows selected by key
  // ---------------------------------------------------------------------

  /** `WHERE name = ?`: a NULL key never matches. */
  predicate Matches(row: Row, key: string) {
    KeyColumn in row && row[KeyColumn] == key
  }

  /** `SELECT COUNT(*) ... WHERE name = ?` */
  function CountKey(rows: seq<Row>, key: string): (n: nat)
    ensures n <= |rows|
    ensures n == 0 <==> forall i :: 0 <= i < |rows| ==> !Matches(rows[i], key)
  {
    if rows == [] then 0
    else (if Matches(rows[0], key) then 1 else 0) + CountKey(rows[1..], key)
  }

  /** The rows `SELECT * ... WHERE name = ?` returns, in read order. */
  function Selected(rows: seq<Row>, key: string): (sel: seq<Row>)
    ensures |sel| == CountKey(rows, key)
    ensures forall i :: 0 <= i < |sel| ==> Matches(sel[i], key)
  {
    if rows == [] then []
    else if Matches(rows[0], key) then [rows[0]] + Selected(rows[1..], key)
    else Selected(rows[1..], key)
  }

  /** The selection misses no matching row. */
  lemma {:induction false} SelectedHoldsEveryMatch(rows: seq<Row>, key: string)
    ensures forall i :: 0 <= i < |rows| && Matches(rows[i], key) ==> rows[i] in Selected(rows, key)
  {
    if rows != [] {
      SelectedHoldsEveryMatch(rows[1..], key);
      assert forall i :: 1 <= i < |rows| ==> rows[i] == rows[1..][i - 1];
    }
  }

  /** The rows a `DELETE ... WHERE name = ?` leaves, in read order. */
  function Unmatched(rows: seq<Row>, key: string): (rest: seq<Row>)
    ensures |rest| <= |rows|
  {
    if rows == [] then []
    else if Matches(rows[0], key) then Unmatched(rows[1..], key)
    else [rows[0]] + Unmatched(rows[1..], key)
  }

  /** A key-addressed DELETE leaves no row with the key and removes as many
      rows as hold it. */
  lemma {:induction false} UnmatchedDropsKey(rows: seq<Row>, key: string)
    ensures |Unmatched(rows, key)| == |rows| - CountKey(rows, key)
    ensures forall i :: 0 <= i < |Unmatched(rows, key)| ==> !Matches(Unmatched(rows, key)[i], key)
    ensures CountKey(Unmatched(rows, key), key) == 0
  {
    if rows != [] {
      UnmatchedDropsKey(rows[1..], key);
    }
  }

  /** Selecting and deleting by key split the rows: together they hold every
      row exactly as often as the table does. */
  lemma {:induction false} PartitionByKey(rows: seq<Row>, key: string)
    ensures multiset(Selected(rows, key)) + multiset(Unmatched(rows, key)) == multiset(rows)
  {
    if rows != [] {
      PartitionByKey(rows[1..], key);
      PartitionStep(rows, key);
    }
  }

  /** The partition of all rows but the first extends to the partition of
      all rows. */
  lemma PartitionStep(rows: seq<Row>, key: string)
    requires rows != []
    requires multiset(Selected(rows[1..], key)) + multiset(Unmatched(rows[1..], key)) == multiset(rows[1..])
    ensures multiset(Selected(rows, key)) + multiset(Unmatched(rows, key)) == multiset(rows)
  {
    var head := rows[0];
    var rest := rows[1..];
    assert rows == [head] + rest;
    SelectedCons(head, rest, key);
    UnmatchedCons(head, rest, key);
    var sel := Selected(rest, key);
    var un := Unmatched(rest, key);
    if Matches(head, key) {
      assert multiset([head] + sel) == multiset{head} + multiset(sel);
    } else {
      assert multiset([head] + un) == multiset{head} + multiset(un);
    }
    assert multiset([head] + rest) == multiset{head} + multiset(rest);
  }

  /** One step of a key-addressed SELECT: the first row is kept exactly when
      it matches. */
  lemma SelectedCons(r: Row, rest: seq<Row>, key: string)
    ensures Selected([r] + rest, key) == (if Matches(r, key) then [r] else []) + Selected(rest, key)
  {
    assert ([r] + rest)[0] == r;
    assert ([r] + rest)[1..] == rest;
  }

  /** One step of a key-addressed DELETE: the first row goes exactly when
      it matches. */
  lemma UnmatchedCons(r: Row, rest: seq<Row>, key: string)
    ensures Unmatched([r] + rest, key) == (if Matches(r, key) then [] else [r]) + Unmatched(rest, key)
  {
    assert ([r] + rest)[0] == r;
    assert ([r] + rest)[1..] == rest;
  }

  /** Deleting by key keeps the surviving rows in their order. */
  lemma {:induction false} UnmatchedAppend(a: seq<Row>, b: seq<Row>, key: string)
    ensures Unmatched(a + b, key) == Unmatched(a, key) + Unmatched(b, key)
  {
    if a == [] {
      assert a + b == b;
    } else {
      var head := a[0];
      var tail := a[1..];
      var kept := if Matches(head, key) then [] else [head];
      assert a == [head] + tail;
      assert a + b == [head] + (tail + b);
      UnmatchedCons(head, tail + b, key);
      UnmatchedCons(head, tail, key);
      UnmatchedAppend(tail, b, key);
      assert kept + (Unmatched(tail, key) + Unmatched(b, key)) == (kept + Unmatched(tail, key)) + Unmatched(b, key);
    }
  }

  lemma {:induction false} CountAppend(a: seq<Row>, b: seq<Row>, key: string)
    ensures CountKey(a + b, key) == CountKey(a, key) + CountKey(b, key)
  {
    if a == [] {
      assert a + b == b;
    } else {
      CountAppend(a[1..], b, key);
      assert (a + b)[0] == a[0];
      assert (a + b)[1..] == a[1..] + b;
    }
  }

  /** Names stay unique: no key is held by more than one row. */
  ghost predicate KeysUnique(rows: seq<Row>) {
    forall key :: CountKey(rows, key) <= 1
  }

  // ---------------------------------------------------------------------
  // Schema check
  // ---------------------------------------------------------------------

  /** `validateDataAgainstTableStructure`: every declared field must be a
      column of the table; the first one that is not is reported. */
  function ValidateSchema(fields: seq<string>, columns: seq<string>, table: string): (r: Outcome)
    ensures r.Pass? <==> forall i :: 0 <= i < |fields| ==> fields[i] in columns
    ensures r.Fail? ==> r.error.SchemaMismatch? && r.error.table == table
    ensures r.Fail? ==> r.error.field in fields && r.error.field !in columns
  {
    if fields == [] then Pass
    else if fields[0] !in columns then Fail(SchemaMismatch(fields[0], table))
    else ValidateSchema(fields[1..], columns, table)
  }

  /** The field reported is the first declared one that is not a column. */
  lemma {:induction false} ValidateSchemaReportsFirst(fields: seq<string>, columns: seq<string>, table: string, i: nat)
    requires i < |fields| && fields[i] !in columns
    requires forall j :: 0 <= j < i ==> fields[j] in columns
    ensures ValidateSchema(fields, columns, table) == Fail(SchemaMismatch(fields[i], table))
  {
    if i > 0 {
      assert fields[0] in columns;
      var rest := fields[1..];
      assert forall j :: 0 <= j < i - 1 ==> rest[j] == fields[j + 1];
      ValidateSchemaReportsFirst(rest, columns, table, i - 1);
    }
  }

  /** A record with a field the table lacks is refused whatever else it has;
      columns the record does not declare are no obstacle. */
  lemma SchemaCheckMonotone(fields: seq<string>, columns: seq<string>, extra: seq<string>, f: string)
    ensures f !in columns ==> ValidateSchema(fields + [f], columns, UsersTable).Fail?
    ensures ValidateSchema(fields, columns, UsersTable).Pass? ==>
      ValidateSchema(fields, columns + extra, UsersTable).Pass?
  {
    assert (fields + [f])[|fields|] == f;
  }

  // ---------------------------------------------------------------------
  // Generated statements
  // ---------------------------------------------------------------------

  function Placeholders(n: nat): (ps: seq<string>)
    ensures |ps| == n
    ensures forall i :: 0 <= i < n ==> ps[i] == "?"
  {
    seq(n, _ => "?")
  }

  function InsertColumns(fields: seq<string>): string
    requires |fields| > 0
  {
    Text.CommaList(fields)
  }

  function InsertPlaceholders(fields: seq<string>): string
    requires |fields| > 0
  {
    Text.CommaList(Placeholders(|fields|))
  }

  /** `INSERT INTO <table> (<columns>) VALUES (<placeholders>)`. Without a
      field the builders' cut would throw, so at least one is required. */
  function InsertQuery(table: string, fields: seq<string>): string
    requires |fields| > 0
  {
    "INSERT INTO " + table + " (" + InsertColumns(fields) + ") VALUES (" + InsertPlaceholders(fields) + ")"
  }

  /** The INSERT lists every declared field once, in declaration order, and
      one placeholder per field. */
  lemma InsertShape(fields: seq<string>)
    requires |fields| > 0
    requires forall i :: 0 <= i < |fields| ==> ',' !in fields[i]
    ensures Text.Split(InsertColumns(fields)) == fields
    ensures Text.Split(InsertPlaceholders(fields)) == Placeholders(|fields|)
  {
    Text.SplitCommaList(fields);
    Text.SplitCommaList(Placeholders(|fields|));
  }

  lemma OccurrencesQuestion()
    ensures Text.Occurrences("?", '?') == 1
    ensures Text.Occurrences(" = ?", '?') == 1
  {
    assert "?"[1..] == "";
    assert " = ?"[1..] == "= ?";
    assert "= ?"[1..] == " ?";
    assert " ?"[1..] == "?";
  }

  /** The fixed text of the generated statements. */
  predicate FixedText(s: string) {
    || s == "INSERT INTO " || s == " (" || s == ") VALUES (" || s == ")"
    || s == "UPDATE " || s == " SET " || s == " WHERE "
  }

  /** No fixed text holds a placeholder. */
  lemma FixedTextHasNoPlaceholder(s: string)
    requires FixedText(s)
    ensures Text.Occurrences(s, '?') == 0
  {
    assert forall i :: 0 <= i < |s| ==> s[i] != '?';
    Text.NoOccurrences(s, '?');
  }

  /** The count over a statement assembled from five pieces. */
  lemma OccurrencesOfFive(p1: string, p2: string, p3: string, p4: string, p5: string, c: char)
    ensures Text.Occurrences(p1 + p2 + p3 + p4 + p5, c) ==
      Text.Occurrences(p1, c) + Text.Occurrences(p2, c) + Text.Occurrences(p3, c) +
      Text.Occurrences(p4, c) + Text.Occurrences(p5, c)
  {
    Text.OccurrencesAppend(p1, p2, c);
    Text.OccurrencesAppend(p1 + p2, p3, c);
    Text.OccurrencesAppend(p1 + p2 + p3, p4, c);
    Text.OccurrencesAppend(p1 + p2 + p3 + p4, p5, c);
  }

  /** The column list holds no placeholder when no field name does. */
  lemma InsertColumnsPlaceholders(fields: seq<string>)
    requires |fields| > 0
    requires forall i :: 0 <= i < |fields| ==> '?' !in fields[i]
    ensures Text.Occurrences(InsertColumns(fields), '?') == 0
  {
    forall i | 0 <= i < |fields|
      ensures Text.Occurrences(fields[i], '?') == 0
    {
      Text.NoOccurrences(fields[i], '?');
    }
    Text.OccurrencesCommaList(fields, '?', 0);
  }

  /** The value list holds one placeholder per field. */
  lemma InsertPlaceholdersCount(fields: seq<string>)
    requires |fields| > 0
    ensures Text.Occurrences(InsertPlaceholders(fields), '?') == |fields|
  {
    OccurrencesQuestion();
    Text.OccurrencesCommaList(Placeholders(|fields|), '?', 1);
  }

  /** The INSERT has as many placeholders as fields, when neither the table
      name nor a field name holds a question mark. */
  lemma InsertParameterCount(table: string, fields: seq<string>)
    requires |fields| > 0
    requires '?' !in table
    requires forall i :: 0 <= i < |fields| ==> '?' !in fields[i]
    ensures Text.Occurrences(InsertQuery(table, fields), '?') == |fields|
  {
    var cols := InsertColumns(fields);
    var ph := InsertPlaceholders(fields);
    InsertColumnsPlaceholders(fields);
    InsertPlaceholdersCount(fields);
    FixedTextHasNoPlaceholder("INSERT INTO ");
    FixedTextHasNoPlaceholder(" (");
    FixedTextHasNoPlaceholder(") VALUES (");
    FixedTextHasNoPlaceholder(")");
    Text.NoOccurrences(table, '?');
    Text.OccurrencesAppend("INSERT INTO ", table, '?');
    var lead := "INSERT INTO " + table;
    OccurrencesOfFive(lead, " (", cols, ") VALUES (", ph, '?');
    Text.OccurrencesAppend(lead + " (" + cols + ") VALUES (" + ph, ")", '?');
    assert InsertQuery(table, fields) == lead + " (" + cols + ") VALUES (" + ph + ")";
  }

  /** The user INSERT binds a value to every placeholder, each column gets
      the value of the field of the same name, and the status is bound as its
      display string. */
  lemma UserInsertBindsEveryPlaceholder(u: User)
    ensures Text.Occurrences(InsertQuery(UsersTable, UserFields), '?') == |InsertBindings(u)|
    ensures Text.Split(InsertColumns(UserFields)) == UserFields
    ensures InsertBindings(u) == [u.name, u.password, ToString(u.status)]
  {
    NoQuestionMarkInNames();
    NoQuestionMarkInFields();
    InsertParameterCount(UsersTable, UserFields);
    InsertShape(UserFields);
  }

  /** The fields an UPDATE sets: every declared field except the key, in
      declaration order. */
  function SetColumns(fields: seq<string>, key: string): (cols: seq<string>)
    ensures |cols| <= |fields|
    ensures forall i :: 0 <= i < |cols| ==> cols[i] != key && cols[i] in fields
    ensures forall i :: 0 <= i < |fields| && fields[i] != key ==> fields[i] in cols
  {
    if fields == [] then []
    else if fields[0] == key then SetColumns(fields[1..], key)
    else [fields[0]] + SetColumns(fields[1..], key)
  }

  function Assignments(cols: seq<string>): (items: seq<string>)
    ensures |items| == |cols|
  {
    seq(|cols|, i requires 0 <= i < |cols| => cols[i] + " = ?")
  }

  /** `<field> = ?` for every non-key field, comma separated; with no such
      field the builder's cut would throw. */
  function SetClause(fields: seq<string>, key: string): (clause: string)
    requires |SetColumns(fields, key)| > 0
    ensures (forall i :: 0 <= i < |fields| ==> ',' !in fields[i]) ==>
      Text.Split(clause) == Assignments(SetColumns(fields, key))
  {
    var items := Assignments(SetColumns(fields, key));
    if forall i :: 0 <= i < |fields| ==> ',' !in fields[i] then
      AssignmentsHaveNoComma(fields, key);
      Text.SplitCommaList(items);
      Text.CommaList(items)
    else
      Text.CommaList(items)
  }

  lemma AssignmentsHaveNoComma(fields: seq<string>, key: string)
    requires forall i :: 0 <= i < |fields| ==> ',' !in fields[i]
    ensures forall i :: 0 <= i < |SetColumns(fields, key)| ==> ',' !in Assignments(SetColumns(fields, key))[i]
  {
    var cols := SetColumns(fields, key);
    forall i | 0 <= i < |cols|
      ensures ',' !in Assignments(cols)[i]
    {
      var j :| 0 <= j < |fields| && fields[j] == cols[i];
      assert Assignments(cols)[i] == cols[i] + " = ?";
      assert " = ?" == [' ', '=', ' ', '?'];
    }
  }

  /** `UPDATE <table> SET <set clause> WHERE <key> = ?` */
  function UpdateQuery(table: string, fields: seq<string>, key: string): string
    requires |SetColumns(fields, key)| > 0
  {
    "UPDATE " + table + " SET " + SetClause(fields, key) + " WHERE " + key + " = ?"
  }

  /** The values an UPDATE binds: the non-key fields in order, then the key. */
  function UpdateBindings(u: User, key: string): seq<string> {
    Bindings(u, SetColumns(UserFields, KeyColumn)) + [key]
  }

  lemma UserSetColumns()
    ensures SetColumns(UserFields, KeyColumn) == ["password", "status"]
  {
    assert UserFields[1..] == ["password", "status"];
    assert UserFields[1..][1..] == ["status"];
    assert UserFields[1..][1..][1..] == [];
  }

  /** The SET clause assigns every non-key field, in declaration order, and
      never the key. */
  lemma UserSetClauseShape()
    ensures Text.Split(SetClause(UserFields, KeyColumn)) == ["password = ?", "status = ?"]
  {
    UserSetColumns();
    var items := Assignments(SetColumns(UserFields, KeyColumn));
    assert items == ["password" + " = ?", "status" + " = ?"];
    assert "password" + " = ?" == "password = ?";
    assert "status" + " = ?" == "status = ?";
    Text.SplitCommaList(items);
  }

  lemma AssignmentPlaceholder(col: string)
    requires '?' !in col
    ensures Text.Occurrences(col + " = ?", '?') == 1
  {
    OccurrencesQuestion();
    Text.NoOccurrences(col, '?');
    Text.OccurrencesAppend(col, " = ?", '?');
  }

  /** The SET clause holds one placeholder per assigned field, when no field
      name holds a question mark. */
  lemma SetClausePlaceholders(fields: seq<string>, key: string)
    requires |SetColumns(fields, key)| > 0
    requires forall i :: 0 <= i < |fields| ==> '?' !in fields[i]
    ensures Text.Occurrences(SetClause(fields, key), '?') == |SetColumns(fields, key)|
  {
    var cols := SetColumns(fields, key);
    var items := Assignments(cols);
    forall i | 0 <= i < |items|
      ensures Text.Occurrences(items[i], '?') == 1
    {
      assert cols[i] in fields;
      AssignmentPlaceholder(cols[i]);
    }
    Text.OccurrencesCommaList(items, '?', 1);
  }

  lemma SetClauseParameterCount()
    ensures Text.Occurrences(SetClause(UserFields, KeyColumn), '?') == 2
  {
    UserSetColumns();
    NoQuestionMarkInFields();
    SetClausePlaceholders(UserFields, KeyColumn);
  }

  /** The UPDATE has one placeholder per SET assignment plus one for the
      key, when neither the table name nor the key holds a question mark. */
  lemma UpdateParameterCount(table: string, fields: seq<string>, key: string)
    requires |SetColumns(fields, key)| > 0
    requires '?' !in table && '?' !in key
    ensures Text.Occurrences(UpdateQuery(table, fields, key), '?') ==
      Text.Occurrences(SetClause(fields, key), '?') + 1
  {
    OccurrencesQuestion();
    FixedTextHasNoPlaceholder("UPDATE ");
    FixedTextHasNoPlaceholder(" SET ");
    FixedTextHasNoPlaceholder(" WHERE ");
    Text.NoOccurrences(table, '?');
    Text.NoOccurrences(key, '?');
    var clause := SetClause(fields, key);
    OccurrencesOfFive("UPDATE ", table, " SET ", clause, " WHERE ", '?');
    var front := "UPDATE " + table + " SET " + clause + " WHERE ";
    Text.OccurrencesAppend(front, key, '?');
    Text.OccurrencesAppend(front + key, " = ?", '?');
    assert UpdateQuery(table, fields, key) == front + key + " = ?";
  }

  /** The user UPDATE holds three placeholders. */
  lemma UserUpdatePlaceholders()
    ensures Text.Occurrences(UpdateQuery(UsersTable, UserFields, KeyColumn), '?') == 3
  {
    UserSetColumns();
    NoQuestionMarkInNames();
    SetClauseParameterCount();
    UpdateParameterCount(UsersTable, UserFields, KeyColumn);
  }

  /** The user UPDATE binds a value to every placeholder: the non-key fields
      in declaration order, then the key last. */
  lemma UserUpdateBindsEveryPlaceholder(u: User, key: string)
    ensures Text.Occurrences(UpdateQuery(UsersTable, UserFields, KeyColumn), '?') == |UpdateBindings(u, key)|
    ensures UpdateBindings(u, key) == [u.password, ToString(u.status), key]
  {
    UserSetColumns();
    var cols := SetColumns(UserFields, KeyColumn);
    assert Bindings(u, cols) == [u.password, ToString(u.status)];
    UserUpdatePlaceholders();
  }

  lemma NoQuestionMarkInNames()
    ensures '?' !in UsersTable && '?' !in KeyColumn
  {
  }

  lemma NoQuestionMarkInFields()
    ensures forall i :: 0 <= i < |UserFields| ==> '?' !in UserFields[i]
  {
    assert '?' !in "name" && '?' !in "password" && '?' !in "status";
  }

  /** The effect of a SET clause on one row. */
  function Assign(row: Row, cols: seq<string>, vals: seq<string>): Row
    requires |cols| == |vals|
    decreases |cols|
  {
    if cols == [] then row
    else Assign(row[cols[0] := vals[0]], cols[1..], vals[1..])
  }

  /** A column the SET clause does not name keeps its value, or its NULL. */
  lemma {:induction false} AssignLeavesOthers(row: Row, cols: seq<string>, vals: seq<string>, c: string)
    requires |cols| == |vals|
    requires c !in cols
    ensures (c in Assign(row, cols, vals)) == (c in row)
    ensures c in row ==> Assign(row, cols, vals)[c] == row[c]
    decreases |cols|
  {
    if cols != [] {
      assert cols[0] != c;
      assert forall i :: 0 <= i < |cols[1..]| ==> cols[1..][i] == cols[i + 1];
      AssignLeavesOthers(row[cols[0] := vals[0]], cols[1..], vals[1..], c);
    }
  }

  /** The row an UPDATE of `u` makes from a matching row. */
  function UpdatedRow(row: Row, u: User): Row {
    Assign(row, SetColumns(UserFields, KeyColumn), Bindings(u, SetColumns(UserFields, KeyColumn)))
  }

  /** An UPDATE of `u` writes the password and the status string, and
      nothing else, into the row. */
  lemma UpdatedRowAssigns(row: Row, u: User)
    ensures UpdatedRow(row, u) == row["password" := u.password]["status" := ToString(u.status)]
  {
    UserSetColumns();
    var vals := Bindings(u, SetColumns(UserFields, KeyColumn));
    assert vals == [u.password, ToString(u.status)];
    var step := row["password" := u.password];
    assert ["password", "status"][1..] == ["status"] && vals[1..] == [ToString(u.status)];
    assert Assign(step, ["status"], [ToString(u.status)]) == step["status" := ToString(u.status)] by {
      assert ["status"][1..] == [] && [ToString(u.status)][1..] == [];
    }
  }

  /** An updated row keeps its key and reads back as the new data under it. */
  lemma UpdatedRowReadsBack(row: Row, key: string, u: User)
    requires Matches(row, key)
    ensures Matches(UpdatedRow(row, u), key)
    ensures MapRow(UpdatedRow(row, u)) == Ok(User(key, u.password, u.status))
  {
    UpdatedRowAssigns(row, u);
    DecodeInvertsToString(u.status);
  }

  function UpdateRows(rows: seq<Row>, key: string, u: User): (updated: seq<Row>)
    ensures |updated| == |rows|
    ensures forall i :: 0 <= i < |rows| && !Matches(rows[i], key) ==> updated[i] == rows[i]
    ensures forall i :: 0 <= i < |rows| && Matches(rows[i], key) ==> updated[i] == UpdatedRow(rows[i], u)
  {
    seq(|rows|, i requires 0 <= i < |rows| =>
      if Matches(rows[i], key) then UpdatedRow(rows[i], u) else rows[i])
  }

  /** No row's key column changes under an UPDATE: the key is never in the
      SET clause. */
  lemma UpdateKeepsKeyColumn(rows: seq<Row>, key: string, u: User)
    ensures forall i :: 0 <= i < |rows| ==>
      (KeyColumn in UpdateRows(rows, key, u)[i]) == (KeyColumn in rows[i])
    ensures forall i :: 0 <= i < |rows| && KeyColumn in rows[i] ==>
      UpdateRows(rows, key, u)[i][KeyColumn] == rows[i][KeyColumn]
  {
    var cols := SetColumns(UserFields, KeyColumn);
    forall i | 0 <= i < |rows|
      ensures (KeyColumn in UpdateRows(rows, key, u)[i]) == (KeyColumn in rows[i])
      ensures KeyColumn in rows[i] ==> UpdateRows(rows, key, u)[i][KeyColumn] == rows[i][KeyColumn]
    {
      AssignLeavesOthers(rows[i], cols, Bindings(u, cols), KeyColumn);
    }
  }

  lemma {:induction false} CountPointwise(a: seq<Row>, b: seq<Row>, key: string)
    requires |a| == |b|
    requires forall i :: 0 <= i < |a| ==> Matches(a[i], key) == Matches(b[i], key)
    ensures CountKey(a, key) == CountKey(b, key)
  {
    if a != [] {
      CountPointwise(a[1..], b[1..], key);
    }
  }

  /** An UPDATE leaves every key's count as it was. */
  lemma UpdateKeepsCounts(rows: seq<Row>, key: string, u: User, k: string)
    ensures CountKey(UpdateRows(rows, key, u), k) == CountKey(rows, k)
  {
    UpdateKeepsKeyColumn(rows, key, u);
    CountPointwise(rows, UpdateRows(rows, key, u), k);
  }

  lemma {:induction false} UnmatchedCounts(rows: seq<Row>, key: string, k: string)
    ensures CountKey(Unmatched(rows, key), k) <= CountKey(rows, k)
  {
    if rows != [] {
      UnmatchedCounts(rows[1..], key, k);
    }
  }

  // ---------------------------------------------------------------------
  // The operations
  // ---------------------------------------------------------------------

  /** `getByKey`: no matching row is NoSuchUser, one is that row mapped, and
      more than one is a reported inconsistency. A mapping failure of the
      first row comes before the check for a second. */
  function GetByKey(t: Table, key: string): (r: Result<User>)
    ensures t.columns == [] ==> r == Err(SqlFailure(NoSuchTableMessage(UsersTable)))
    ensures KeyColumn !in t.columns ==> r.Err? && r.error.SqlFailure?
    ensures KeyColumn in t.columns ==> (r == Err(NoSuchUser) <==> CountKey(t.rows, key) == 0)
    ensures KeyColumn in t.columns && CountKey(t.rows, key) == 1 ==>
      forall i :: 0 <= i < |t.rows| && Matches(t.rows[i], key) ==> r == MapRow(t.rows[i])
    ensures CountKey(t.rows, key) >= 2 ==> r.Err? && r.error.SqlFailure?
    ensures r.Ok? ==> r.value.name == key && CountKey(t.rows, key) == 1
    ensures r.Err? ==> r.error == NoSuchUser || r.error.SqlFailure?
  {
    if KeyColumn !in t.columns then Err(MissingKeyColumn(t))
    else
      var sel := Selected(t.rows, key);
      SingleMatchIsSelected(t.rows, key);
      if |sel| == 0 then Err(NoSuchUser)
      else
        match MapRow(sel[0])
        case Err(e) => Err(e)
        case Ok(u) => if |sel| > 1 then Err(SqlFailure(InconsistencyMessage(key))) else Ok(u)
  }

  /** With exactly one matching row, that row is the whole selection. */
  lemma SingleMatchIsSelected(rows: seq<Row>, key: string)
    ensures CountKey(rows, key) == 1 ==>
      |Selected(rows, key)| == 1 &&
      forall i :: 0 <= i < |rows| && Matches(rows[i], key) ==> rows[i] == Selected(rows, key)[0]
  {
    if CountKey(rows, key) == 1 {
      var sel := Selected(rows, key);
      SelectedHoldsEveryMatch(rows, key);
      assert sel == [sel[0]];
      forall i | 0 <= i < |rows| && Matches(rows[i], key)
        ensures rows[i] == sel[0]
      {
        assert rows[i] in [sel[0]];
      }
    }
  }

  /** Every row mapped, in read order; the first row that cannot be mapped
      fails the whole read. */
  function MapRows(rows: seq<Row>): (r: Result<seq<User>>)
    ensures r.Ok? <==> forall i :: 0 <= i < |rows| ==> MapRow(rows[i]).Ok?
    ensures r.Ok? ==> |r.value| == |rows|
    ensures r.Ok? ==> forall i :: 0 <= i < |rows| ==> MapRow(rows[i]) == Ok(r.value[i])
    ensures r.Err? ==> r.error.SqlFailure?
  {
    if rows == [] then Ok([])
    else
      match MapRow(rows[0])
      case Err(e) => Err(e)
      case Ok(u) =>
        match MapRows(rows[1..])
        case Err(e) => Err(e)
        case Ok(us) => Ok([u] + us)
  }

  /** `getAll`: `SELECT *` through the mapper. A table with no columns is
      a database without the `users` table, which the query reports. */
  function GetAll(t: Table): (r: Result<seq<User>>)
    ensures t.columns == [] ==> r == Err(SqlFailure(NoSuchTableMessage(UsersTable)))
    ensures r.Ok? ==> |r.value| == |t.rows|
    ensures r.Ok? ==> forall i :: 0 <= i < |t.rows| ==> MapRow(t.rows[i]) == Ok(r.value[i])
    ensures r.Err? ==> r.error.SqlFailure?
    ensures r.Err? && t.columns != [] ==> exists i :: 0 <= i < |t.rows| && MapRow(t.rows[i]).Err?
  {
    if t.columns == [] then Err(SqlFailure(NoSuchTableMessage(UsersTable)))
    else MapRows(t.rows)
  }

  /** `post`: the schema check, then the key check, then one INSERT. */
  function Post(t: Table, u: User): (r: Result<Table>)
    ensures (exists i :: 0 <= i < |UserFields| && UserFields[i] !in t.columns) ==>
      r.Err? && r.error.SchemaMismatch?
    ensures (forall i :: 0 <= i < |UserFields| ==> UserFields[i] in t.columns) ==>
      (r == Err(UserAlreadyExists) <==> CountKey(t.rows, u.name) > 0)
    ensures (forall i :: 0 <= i < |UserFields| ==> UserFields[i] in t.columns) && CountKey(t.rows, u.name) == 0 ==>
      r.Ok?
    ensures r.Ok? ==> r.value.columns == t.columns
    ensures r.Ok? ==> |r.value.rows| == |t.rows| + 1 && r.value.rows[..|t.rows|] == t.rows
    ensures r.Ok? ==> MapRow(r.value.rows[|t.rows|]) == Ok(u)
    ensures r.Ok? ==> r.value.rows[|t.rows|] == InsertRow(u)
    ensures r.Ok? ==>
      r.value.rows[|t.rows|] == map["name" := u.name, "password" := u.password, "status" := ToString(u.status)]
    ensures r.Ok? ==> CountKey(t.rows, u.name) == 0 && CountKey(r.value.rows, u.name) == 1
  {
    match ValidateSchema(UserFields, t.columns, UsersTable)
    case Fail(e) => Err(e)
    case Pass =>
      if CountKey(t.rows, u.name) > 0 then Err(UserAlreadyExists)
      else
        InsertRowRoundTrip(u);
        InsertRowCells(u);
        CountAppend(t.rows, [InsertRow(u)], u.name);
        assert CountKey([InsertRow(u)], u.name) == 1;
        Ok(t.(rows := t.rows + [InsertRow(u)]))
  }

  /** `update`: the existence count, then the schema check, then the UPDATE. */
  function Update(t: Table, key: string, u: User): (r: Result<Table>)
    ensures t.columns == [] ==> r == Err(SqlFailure(NoSuchTableMessage(UsersTable)))
    ensures KeyColumn !in t.columns ==> r.Err? && r.error.SqlFailure?
    ensures KeyColumn in t.columns ==> (r == Err(NoSuchUser) <==> CountKey(t.rows, key) == 0)
    ensures KeyColumn in t.columns && CountKey(t.rows, key) > 0 ==>
      (r.Ok? <==> forall i :: 0 <= i < |UserFields| ==> UserFields[i] in t.columns)
    ensures KeyColumn in t.columns && CountKey(t.rows, key) > 0 && r.Err? ==>
      ValidateSchema(UserFields, t.columns, UsersTable).Fail? &&
      r.error == ValidateSchema(UserFields, t.columns, UsersTable).error
    ensures r.Ok? ==> r.value.columns == t.columns && |r.value.rows| == |t.rows|
    ensures r.Ok? ==> forall i :: 0 <= i < |t.rows| && !Matches(t.rows[i], key) ==>
      r.value.rows[i] == t.rows[i]
    ensures r.Ok? ==> forall i :: 0 <= i < |t.rows| && Matches(t.rows[i], key) ==>
      Matches(r.value.rows[i], key) && MapRow(r.value.rows[i]) == Ok(User(key, u.password, u.status))
    ensures r.Ok? ==> forall i :: 0 <= i < |t.rows| && Matches(t.rows[i], key) ==>
      r.value.rows[i] == t.rows[i]["password" := u.password]["status" := ToString(u.status)]
    ensures r.Ok? ==> r.value.rows == UpdateRows(t.rows, key, u)
  {
    if KeyColumn !in t.columns then Err(MissingKeyColumn(t))
    else if CountKey(t.rows, key) == 0 then Err(NoSuchUser)
    else
      match ValidateSchema(UserFields, t.columns, UsersTable)
      case Fail(e) => Err(e)
      case Pass =>
        var rows := UpdateRows(t.rows, key, u);
        assert forall i :: 0 <= i < |t.rows| && Matches(t.rows[i], key) ==>
          Matches(rows[i], key) && MapRow(rows[i]) == Ok(User(key, u.password, u.status)) by {
          forall i | 0 <= i < |t.rows| && Matches(t.rows[i], key)
            ensures Matches(rows[i], key) && MapRow(rows[i]) == Ok(User(key, u.password, u.status))
          {
            UpdatedRowReadsBack(t.rows[i], key, u);
          }
        }
        assert forall i :: 0 <= i < |t.rows| && Matches(t.rows[i], key) ==>
          rows[i] == t.rows[i]["password" := u.password]["status" := ToString(u.status)] by {
          forall i | 0 <= i < |t.rows| && Matches(t.rows[i], key)
            ensures rows[i] == t.rows[i]["password" := u.password]["status" := ToString(u.status)]
          {
            UpdatedRowAssigns(t.rows[i], u);
          }
        }
        Ok(t.(rows := rows))
  }

  /** `delete`: the existence count, then a DELETE of every matching row. */
  function Delete(t: Table, key: string): (r: Result<Table>)
    ensures t.columns == [] ==> r == Err(SqlFailure(NoSuchTableMessage(UsersTable)))
    ensures KeyColumn !in t.columns ==> r.Err? && r.error.SqlFailure?
    ensures KeyColumn in t.columns ==> (r == Err(NoSuchUser) <==> CountKey(t.rows, key) == 0)
    ensures r.Ok? <==> KeyColumn in t.columns && CountKey(t.rows, key) > 0
    ensures r.Ok? ==> r.value.columns == t.columns && CountKey(r.value.rows, key) == 0
    ensures r.Ok? ==> |r.value.rows| == |t.rows| - CountKey(t.rows, key)
    ensures r.Ok? ==> multiset(r.value.rows) + multiset(Selected(t.rows, key)) == multiset(t.rows)
  {
    if KeyColumn !in t.columns then Err(MissingKeyColumn(t))
    else if CountKey(t.rows, key) == 0 then Err(NoSuchUser)
    else
      PartitionByKey(t.rows, key);
      UnmatchedDropsKey(t.rows, key);
      Ok(t.(rows := Unmatched(t.rows, key)))
  }

  /** `readFile` is not callable on the relational operator. */
  function ReadFile(): (r: Result<seq<User>>)
    ensures r.Err? && r.error == IrregularAccess(SqlOperatorClass)
  {
    Err(IrregularAccess(SqlOperatorClass))
  }

  /** `writeToFile` is not callable on the relational operator. */
  function WriteToFile(data: seq<User>): (r: Result<Table>)
    ensures r.Err? && r.error == IrregularAccess(SqlOperatorClass)
  {
    Err(IrregularAccess(SqlOperatorClass))
  }

  // ---------------------------------------------------------------------
  // Properties across operations
  // ---------------------------------------------------------------------

  /** A posted user is found again by its name. */
  lemma PostThenGetByKey(t: Table, u: User)
    requires Post(t, u).Ok?
    ensures GetByKey(Post(t, u).value, u.name) == Ok(u)
  {
    var t' := Post(t, u).value;
    assert KeyColumn == UserFields[0];
    assert t'.rows[|t.rows|] == InsertRow(u) by {
      assert t'.rows == t.rows + [InsertRow(u)];
    }
    InsertRowRoundTrip(u);
  }

  /** The relational operations keep names unique. */
  lemma OperationsKeepKeysUnique(t: Table, key: string, u: User)
    requires KeysUnique(t.rows)
    ensures Post(t, u).Ok? ==> KeysUnique(Post(t, u).value.rows)
    ensures Update(t, key, u).Ok? ==> KeysUnique(Update(t, key, u).value.rows)
    ensures Delete(t, key).Ok? ==> KeysUnique(Delete(t, key).value.rows)
  {
    if Post(t, u).Ok? {
      var rows := t.rows + [InsertRow(u)];
      assert Post(t, u).value.rows == rows;
      InsertRowRoundTrip(u);
      forall k
        ensures CountKey(rows, k) <= 1
      {
        CountAppend(t.rows, [InsertRow(u)], k);
        assert CountKey([InsertRow(u)], k) == if Matches(InsertRow(u), k) then 1 else 0;
      }
    }
    if Update(t, key, u).Ok? {
      forall k
        ensures CountKey(Update(t, key, u).value.rows, k) <= 1
      {
        UpdateKeepsCounts(t.rows, key, u, k);
      }
    }
    if Delete(t, key).Ok? {
      forall k
        ensures CountKey(Delete(t, key).value.rows, k) <= 1
      {
        UnmatchedCounts(t.rows, key, k);
      }
    }
  }

  /** A second delete of the same key fails: the first removed every row
      holding it. */
  lemma DeleteTwiceFails(t: Table, key: string)
    requires Delete(t, key).Ok?
    ensures Delete(Delete(t, key).value, key) == Err(NoSuchUser)
  {
  }
}

=== FILE: text.dfy ===
/**
 String building for the generated SQL. The Java code appends every item
 followed by a comma and then cuts the last character off with
 `setLength(length - 1)`; `Split` is the independent reading-back used to
 state what such a list contains.
 */
module Text {

  /** Every item followed by a comma: the builder before its final cut. */
  function Terminated(items: seq<string>): (s: string)
    ensures |s| >= |items|
  {
    if items == [] then "" else items[0] + "," + Terminated(items[1..])
  }

  /** The builder after `setLength(length - 1)`. With no items the length
      would become -1, which throws, so the list must not be empty. */
  function CommaList(items: seq<string>): string
    requires |items| > 0
  {
    var t := Terminated(items);
    t[..|t| - 1]
  }

  /** What the cut removes is exactly the comma after the last item. */
  lemma CommaListCutsTrailingComma(items: seq<string>)
    requires |items| > 0
    ensures CommaList(items) + "," == Terminated(items)
  {
    var t := Terminated(items);
    TerminatedEndsWithComma(items);
    assert t == t[..|t| - 1] + [t[|t| - 1]];
  }

  lemma {:induction false} TerminatedEndsWithComma(items: seq<string>)
    requires |items| > 0
    ensures |Terminated(items)| > 0 && Terminated(items)[|Terminated(items)| - 1] == ','
  {
    var rest := Terminated(items[1..]);
    assert Terminated(items) == items[0] + "," + rest;
    if |items| > 1 {
      TerminatedEndsWithComma(items[1..]);
    } else {
      assert rest == "";
    }
  }

  /** The comma list of several items is the first, a comma, and the rest. */
  lemma CommaListUnfold(items: seq<string>)
    requires |items| > 0
    ensures |items| == 1 ==> CommaList(items) == items[0]
    ensures |items| > 1 ==> CommaList(items) == items[0] + "," + CommaList(items[1..])
  {
    var t := Terminated(items);
    var rest := Terminated(items[1..]);
    assert t == items[0] + "," + rest;
    if |items| > 1 {
      assert |rest| > 0;
      assert t[..|t| - 1] == items[0] + "," + rest[..|rest| - 1];
    } else {
      assert rest == "";
    }
  }

  /** The pieces between commas, in order. */
  function Split(s: string): (parts: seq<string>)
    ensures |parts| >= 1
  {
    if s == [] then [""]
    else
      var rest := Split(s[1..]);
      if s[0] == ',' then [""] + rest
      else [[s[0]] + rest[0]] + rest[1..]
  }

  lemma {:induction false} SplitPlain(x: string)
    requires ',' !in x
    ensures Split(x) == [x]
  {
    if x != [] {
      assert x[0] in x;
      assert forall i :: 0 <= i < |x[1..]| ==> x[1..][i] == x[i + 1];
      SplitPlain(x[1..]);
      assert x == [x[0]] + x[1..];
    }
  }

  lemma {:induction false} SplitAfterPiece(x: string, s: string)
    requires ',' !in x
    ensures Split(x + "," + s) == [x] + Split(s)
  {
    var y := x + "," + s;
    if x == [] {
      assert y[0] == ',' && y[1..] == s;
    } else {
      assert x[0] in x;
      assert forall i :: 0 <= i < |x[1..]| ==> x[1..][i] == x[i + 1];
      SplitAfterPiece(x[1..], s);
      assert y[0] == x[0] && y[1..] == x[1..] + "," + s;
      assert x == [x[0]] + x[1..];
    }
  }

  /** Reading a comma list back gives exactly its items, in order, provided
      no item contains a comma itself. */
  lemma {:induction false} SplitCommaList(items: seq<string>)
    requires |items| > 0
    requires forall i :: 0 <= i < |items| ==> ',' !in items[i]
    ensures Split(CommaList(items)) == items
  {
    CommaListUnfold(items);
    var head := items[0];
    assert ',' !in head;
    if |items| == 1 {
      SplitPlain(head);
    } else {
      var tail := items[1..];
      assert forall i :: 0 <= i < |tail| ==> tail[i] == items[i + 1];
      SplitCommaList(tail);
      SplitAfterPiece(head, CommaList(tail));
      assert Split(CommaList(items)) == [head] + tail;
      assert items == [head] + tail;
    }
  }

  /** Number of occurrences of `c` in `s`. */
  function Occurrences(s: string, c: char): (n: nat)
    ensures n <= |s|
  {
    if s == [] then 0
    else (if s[0] == c then 1 else 0) + Occurrences(s[1..], c)
  }

  /** A character that appears at no position occurs no time. */
  lemma {:induction false} NoOccurrences(s: string, c: char)
    requires forall i :: 0 <= i < |s| ==> s[i] != c
    ensures Occurrences(s, c) == 0
  {
    if s != [] {
      NoOccurrences(s[1..], c);
    }
  }

  lemma {:induction false} OccurrencesAppend(a: string, b: string, c: char)
    ensures Occurrences(a + b, c) == Occurrences(a, c) + Occurrences(b, c)
  {
    if a != [] {
      OccurrencesAppend(a[1..], b, c);
      assert (a + b)[0] == a[0];
      assert (a + b)[1..] == a[1..] + b;
    } else {
      assert a + b == b;
    }
  }

  lemma MultiplySucc(k: nat, n: nat)
    ensures k * (n + 1) == k + k * n
  {
  }

  /** A comma list holds `c` as often as its items do together, when every
      item holds it `k` times and `c` is not the comma. */
  lemma {:induction false} OccurrencesCommaList(items: seq<string>, c: char, k: nat)
    requires |items| > 0
    requires c != ','
    requires forall i :: 0 <= i < |items| ==> Occurrences(items[i], c) == k
    ensures Occurrences(CommaList(items), c) == k * |items|
  {
    CommaListUnfold(items);
    if |items| > 1 {
      var rest := items[1..];
      OccurrencesCommaList(rest, c, k);
      OccurrencesAppend(items[0] + ",", CommaList(rest), c);
      OccurrencesAppend(items[0], ",", c);
      assert Occurrences(",", c) == 0;
      MultiplySucc(k, |rest|);
    }
  }
}

=== FILE: user.dfy ===
/**
 The `User` record: a name (the storage key), a plaintext password and a
 role. Equality looks at name and password only; the hash looks at the
 name only.
 */
module Users {
  import opened UserStatus

  datatype User = User(name: string, password: string, status: Status)

  const DefaultName: string := "no name"
  const DefaultPassword: string := "no passwd"

  /** `new User(name, password)`: every account made this way is a plain user. */
  function NewUser(name: string, password: string): (u: User)
    ensures u.name == name && u.password == password
    ensures IsJustUser(u) && !IsAdmin(u)
  {
    User(name, password, JustUser)
  }

  /** `new User(name)`: the default password and the plain role. */
  function NamedUser(name: string): (u: User)
    ensures u == NewUser(name, DefaultPassword)
  {
    User(name, DefaultPassword, JustUser)
  }

  /** `new User()`: default name, default password, plain role. */
  function DefaultUser(): (u: User)
    ensures u == NamedUser(DefaultName)
    ensures u.name == "no name" && u.password == "no passwd" && u.status == JustUser
  {
    User(DefaultName, DefaultPassword, JustUser)
  }

  /** The role a status string stands for: only the exact display string of
      `JUST_USER` gives the plain role; every other string gives `ADMIN`. */
  function DecodeStatus(s: string): (st: Status)
    ensures st == JustUser <==> s == "just_user"
    ensures st == Admin <==> s != "just_user"
  {
    if s == ToString(JustUser) then JustUser else Admin
  }

  /** `new User(name, password, status)` with the status given as a string,
      as the row mapper calls it. */
  function FromColumns(name: string, password: string, status: string): (u: User)
    ensures u.name == name && u.password == password
    ensures IsJustUser(u) <==> status == "just_user"
  {
    User(name, password, DecodeStatus(status))
  }

  /** Decoding a display string gives back the constant it came from. */
  lemma DecodeInvertsToString(st: Status)
    ensures DecodeStatus(ToString(st)) == st
  {
  }

  /** The two-argument constructor agrees with the string constructor fed
      the plain role's display string. */
  lemma ConstructorsAgree(name: string, password: string)
    ensures NewUser(name, password) == FromColumns(name, password, ToString(JustUser))
  {
  }

  /** `equals` between two users: they are equal exactly when they
      coincide once the role is disregarded. */
  predicate Equals(a: User, b: User)
    ensures Equals(a, b) <==> a.(status := b.status) == b
  {
    a.name == b.name && a.password == b.password
  }

  /** Changing either user's role never changes whether they are equal. */
  lemma EqualsIgnoresStatus(a: User, b: User, s: Status, s': Status)
    ensures Equals(a.(status := s), b.(status := s')) == Equals(a, b)
  {
  }

  /** `equals` obeys the contract of `Object.equals` on users. */
  lemma EqualsIsEquivalence(a: User, b: User, c: User)
    ensures Equals(a, a)
    ensures Equals(a, b) ==> Equals(b, a)
    ensures Equals(a, b) && Equals(b, c) ==> Equals(a, c)
  {
  }

  /** The argument of `equals` is any Java object. */
  datatype Object = UserObject(user: User) | NullReference | OtherObject

  /** `equals(Object o)`: false for null and for anything that is not a user. */
  predicate EqualsObject(u: User, o: Object)
    ensures EqualsObject(u, o) <==> o.UserObject? && o.user.name == u.name && o.user.password == u.password
  {
    match o
    case UserObject(v) => Equals(u, v)
    case _ => false
  }

  /** `isAdmin`: the role whose stored string is "admin". */
  predicate IsAdmin(u: User)
    ensures IsAdmin(u) <==> ToString(u.status) == "admin"
  {
    u.status == Admin
  }

  /** `isJustUser`: the role whose stored string is "just_user". */
  predicate IsJustUser(u: User)
    ensures IsJustUser(u) <==> ToString(u.status) == "just_user"
  {
    u.status == JustUser
  }

  /** Every user has exactly one of the two roles. */
  lemma ExactlyOneRole(u: User)
    ensures IsAdmin(u) != IsJustUser(u)
  {
  }

  // ---------------------------------------------------------------------
  // hashCode: `Objects.hashCode(name)`, that is Java's `String.hashCode`
  // over the UTF-16 code units of the name, in 32-bit arithmetic.
  // ---------------------------------------------------------------------

  const TwoTo31: int := 0x8000_0000
  const TwoTo32: int := 0x1_0000_0000

  /** Reduction of an integer to Java's signed 32-bit `int` range. */
  function WrapInt(x: int): (r: int)
    ensures -TwoTo31 <= r < TwoTo31
    ensures (r - x) % TwoTo32 == 0
  {
    (x + TwoTo31) % TwoTo32 - TwoTo31
  }

  /** The UTF-16 code units Java stores for a string: a character of the
      basic plane is one unit of its own value; a character beyond it becomes
      a high and a low surrogate from which it is recovered. */
  function Utf16(s: string): (units: seq<int>)
    ensures |units| >= |s|
    ensures forall i :: 0 <= i < |units| ==> 0 <= units[i] < 0x1_0000
    ensures s != [] && (s[0] as int) < 0x1_0000 ==>
      units[0] == s[0] as int && units[1..] == Utf16(s[1..])
    ensures s != [] && (s[0] as int) >= 0x1_0000 ==>
      |units| >= 2 &&
      0xD800 <= units[0] < 0xDC00 && 0xDC00 <= units[1] < 0xE000 &&
      0x1_0000 + (units[0] - 0xD800) * 0x400 + (units[1] - 0xDC00) == s[0] as int &&
      units[2..] == Utf16(s[1..])
  {
    if s == [] then []
    else
      var c := s[0] as int;
      var head := if c < 0x1_0000 then [c]
                  else [0xD800 + (c - 0x1_0000) / 0x400, 0xDC00 + (c - 0x1_0000) % 0x400];
      head + Utf16(s[1..])
  }

  /** `h = 31 * h + unit` over the units, with wrap-around after each step. */
  function PolyHash(units: seq<int>): (h: int)
    ensures -TwoTo31 <= h < TwoTo31
  {
    if units == [] then 0
    else WrapInt(31 * PolyHash(units[..|units| - 1]) + units[|units| - 1])
  }

  /** The same polynomial in unbounded integers. */
  function Polynomial(units: seq<int>): int {
    if units == [] then 0
    else 31 * Polynomial(units[..|units| - 1]) + units[|units| - 1]
  }

  /** Java's `String.hashCode`: a 32-bit value congruent to the polynomial
      over the string's UTF-16 units. */
  function StringHashCode(s: string): (h: int)
    ensures -TwoTo31 <= h < TwoTo31
    ensures (h - Polynomial(Utf16(s))) % TwoTo32 == 0
  {
    PolyHashIsPolynomialModulo(Utf16(s));
    PolyHash(Utf16(s))
  }

  /** `hashCode`: `Objects.hashCode(name)`, the string hash of the name,
      which is never null here. */
  function HashCode(u: User): (h: int)
    ensures -TwoTo31 <= h < TwoTo31
    ensures (h - Polynomial(Utf16(u.name))) % TwoTo32 == 0
  {
    StringHashCode(u.name)
  }

  lemma MultiplesAdd(a: int, b: int)
    requires a % 0x1_0000_0000 == 0 && b % 0x1_0000_0000 == 0
    ensures (a + 31 * b) % 0x1_0000_0000 == 0
  {
  }

  /** The wrapped hash is the unbounded polynomial reduced modulo 2^32. */
  lemma {:induction false} PolyHashIsPolynomialModulo(units: seq<int>)
    ensures (PolyHash(units) - Polynomial(units)) % TwoTo32 == 0
  {
    if units != [] {
      var init := units[..|units| - 1];
      var c := units[|units| - 1];
      PolyHashIsPolynomialModulo(init);
      var x := 31 * PolyHash(init) + c;
      assert PolyHash(units) - Polynomial(units)
          == (WrapInt(x) - x) + 31 * (PolyHash(init) - Polynomial(init));
      MultiplesAdd(WrapInt(x) - x, PolyHash(init) - Polynomial(init));
    }
  }

  /** The hash reads the name only: password and role never change it. */
  lemma HashCodeDependsOnNameOnly(a: User, b: User)
    requires a.name == b.name
    ensures HashCode(a) == HashCode(b)
  {
  }

  /** Equal users have equal hashes, as `Object.hashCode` demands. */
  lemma EqualUsersHashAlike(a: User, b: User)
    requires Equals(a, b)
    ensures HashCode(a) == HashCode(b)
  {
  }

  /** Two values Java's `String.hashCode` is known to give. */
  lemma HashCodeSamples()
    ensures StringHashCode("") == 0
    ensures StringHashCode("a") == 97
    ensures StringHashCode("ab") == 3105
  {
    assert Utf16("a") == [97] by {
      assert "a"[1..] == "";
    }
    assert Utf16("ab") == [97, 98] by {
      assert "ab"[1..] == "b" && "b"[1..] == "";
    }
    assert PolyHash([97]) == 97 by {
      assert [97][..0] == [];
    }
    assert PolyHash([97, 98]) == 3105 by {
      assert [97, 98][..1] == [97];
    }
  }
}

=== FILE: user_dao.dfy ===
/**
 The user repository. It holds one configured operator and routes each
 call by the operator's class: the relational operator does its own key
 checks, while for the document operator the repository reads the whole
 list, checks and changes it in memory by a linear scan on the name, and
 writes it back whole. An operator of any other class falls through every
 branch.
 */
module UserDao {
  import opened Exceptions
  import opened Users
  import SqlOperator
  import JsonOperator
  import opened DataOperator

  /** The operator the repository was built with: one of the two known
      classes, or some other implementation of the interface. */
  datatype Configured = Known(backend: Backend) | Unrecognised

  /** A Java reference that may be null. */
  datatype Nullable<T> = Null | NonNull(value: T)

  // ---------------------------------------------------------------------
  // The in-memory list
  // ---------------------------------------------------------------------

  predicate HasName(users: seq<User>, name: string) {
    exists i :: 0 <= i < |users| && users[i].name == name
  }

  /** Names stay unique: no two entries share a name. */
  predicate UniqueNames(users: seq<User>) {
    forall i, j :: 0 <= i < j < |users| ==> users[i].name != users[j].name
  }

  /** `checkIfUserExists`: a linear scan that stops at the first match. */
  method CheckIfUserExists(name: string, users: seq<User>) returns (found: bool)
    ensures found <==> exists i :: 0 <= i < |users| && users[i].name == name
  {
    found := false;
    var i := 0;
    while i < |users|
      invariant 0 <= i <= |users|
      invariant !found
      invariant forall j :: 0 <= j < i ==> users[j].name != name
    {
      if users[i].name == name {
        found := true;
        break;
      }
      i := i + 1;
    }
  }

  /** Position of the first entry with the name, or the length of the list
      when there is none. */
  function FirstIndex(users: seq<User>, name: string): (i: nat)
    ensures i <= |users|
    ensures i < |users| ==> users[i].name == name
    ensures forall j :: 0 <= j < i ==> users[j].name != name
    ensures i == |users| <==> !HasName(users, name)
  {
    if users == [] then 0
    else if users[0].name == name then 0
    else 1 + FirstIndex(users[1..], name)
  }

  /** The lookup of `jsonGetUserByName` on the list read from the file. */
  function FindUser(users: seq<User>, name: string): (r: Result<User>)
    ensures r.Err? <==> !HasName(users, name)
    ensures r.Err? ==> r.error == NoSuchUser
    ensures r.Ok? ==> r.value.name == name
    ensures r.Ok? ==> exists i :: 0 <= i < |users| && users[i] == r.value &&
                                 (forall j :: 0 <= j < i ==> users[j].name != name)
  {
    var i := FirstIndex(users, name);
    if i == |users| then Err(NoSuchUser) else Ok(users[i])
  }

  /** The change `jsonSave` makes to the list. */
  function AddToList(users: seq<User>, u: User): (r: Result<seq<User>>)
    ensures r.Err? <==> HasName(users, u.name)
    ensures r.Err? ==> r.error == UserAlreadyExists
    ensures r.Ok? ==> |r.value| == |users| + 1 && r.value[..|users|] == users && r.value[|users|] == u
  {
    if HasName(users, u.name) then Err(UserAlreadyExists) else Ok(users + [u])
  }

  /** The change `jsonUpdate` makes: the first entry with the name becomes
      the new record; length, order and all other entries stay. */
  function ReplaceFirst(users: seq<User>, u: User): (r: Result<seq<User>>)
    ensures r.Err? <==> !HasName(users, u.name)
    ensures r.Err? ==> r.error == NoSuchUser
    ensures r.Ok? ==> |r.value| == |users|
    ensures r.Ok? ==> r.value[FirstIndex(users, u.name)] == u
    ensures r.Ok? ==> forall j :: 0 <= j < |users| && j != FirstIndex(users, u.name) ==> r.value[j] == users[j]
    ensures r.Ok? ==> forall j :: 0 <= j < |users| ==> r.value[j].name == users[j].name
  {
    var i := FirstIndex(users, u.name);
    if i == |users| then Err(NoSuchUser) else Ok(users[i := u])
  }

  /** The change `jsonDelete` makes: exactly the first entry with the name
      goes; the others keep their order. */
  function RemoveFirst(users: seq<User>, name: string): (r: Result<seq<User>>)
    ensures r.Err? <==> !HasName(users, name)
    ensures r.Err? ==> r.error == NoSuchUser
    ensures r.Ok? ==> |r.value| == |users| - 1
    ensures r.Ok? ==> forall j :: 0 <= j < FirstIndex(users, name) ==> r.value[j] == users[j]
    ensures r.Ok? ==> forall j :: FirstIndex(users, name) <= j < |r.value| ==> r.value[j] == users[j + 1]
  {
    var i := FirstIndex(users, name);
    if i == |users| then Err(NoSuchUser) else Ok(users[..i] + users[i + 1..])
  }

  /** Adding, replacing and removing keep names unique. */
  lemma ListChangesKeepNamesUnique(users: seq<User>, u: User, name: string)
    requires UniqueNames(users)
    ensures AddToList(users, u).Ok? ==> UniqueNames(AddToList(users, u).value)
    ensures ReplaceFirst(users, u).Ok? ==> UniqueNames(ReplaceFirst(users, u).value)
    ensures RemoveFirst(users, name).Ok? ==> UniqueNames(RemoveFirst(users, name).value)
  {
    if RemoveFirst(users, name).Ok? {
      var i := FirstIndex(users, name);
      var rest := RemoveFirst(users, name).value;
      forall a, b | 0 <= a < b < |rest|
        ensures rest[a].name != rest[b].name
      {
        var a' := if a < i then a else a + 1;
        var b' := if b < i then b else b + 1;
        assert rest[a] == users[a'] && rest[b] == users[b'];
      }
    }
  }

  /** With unique names, once an entry is removed no entry has its name. */
  lemma RemovedNameIsGone(users: seq<User>, name: string)
    requires UniqueNames(users)
    requires RemoveFirst(users, name).Ok?
    ensures !HasName(RemoveFirst(users, name).value, name)
  {
    var i := FirstIndex(users, name);
    var rest := RemoveFirst(users, name).value;
    forall k | 0 <= k < |rest|
      ensures rest[k].name != name
    {
      if k >= i {
        assert rest[k] == users[k + 1];
      }
    }
  }

  /** Without unique names a second delete of a name can still succeed: the
      invariant is what makes delete-twice fail. */
  lemma DuplicateNamesSurviveOneDelete()
    ensures var a := User("alice", "pw1", UserStatus.JustUser);
            var b := User("alice", "pw2", UserStatus.Admin);
            RemoveFirst([a, b], "alice") == Ok([b]) && RemoveFirst([b], "alice") == Ok([])
  {
    var a := User("alice", "pw1", UserStatus.JustUser);
    var b := User("alice", "pw2", UserStatus.Admin);
    assert FirstIndex([a, b], "alice") == 0;
    assert [a, b][..0] + [a, b][1..] == [b];
    assert FirstIndex([b], "alice") == 0;
    assert [b][..0] + [b][1..] == [];
  }

  // ---------------------------------------------------------------------
  // The document routines: read whole, change in memory, write whole
  // ---------------------------------------------------------------------

  /** A file that does not parse fails the lookup with the read error;
      otherwise the first entry with the name is found, or NoSuchUser. */
  function JsonGetUserByName(f: JsonOperator.JsonFile, name: string): (r: Result<User>)
    ensures r.Err? ==> r.error == NoSuchUser || r.error.JsonFailure?
    ensures !f.document.Parsed? ==> r == Err(JsonFailure(JsonOperator.ReadErrorMessage))
    ensures f.document.Parsed? ==> r == FindUser(f.document.users, name)
  {
    match JsonOperator.ReadFile(f)
    case Err(e) => Err(e)
    case Ok(users) => FindUser(users, name)
  }

  /** Read, refuse a name already present, append, write back. The save
      succeeds exactly when the file parses, the name is new and the file
      can be written. */
  function JsonSave(f: JsonOperator.JsonFile, u: User): (r: Result<JsonOperator.JsonFile>)
    ensures r.Err? ==> r.error == UserAlreadyExists || r.error.JsonFailure?
    ensures !f.document.Parsed? ==> r == Err(JsonFailure(JsonOperator.ReadErrorMessage))
    ensures r == Err(UserAlreadyExists) <==> f.document.Parsed? && HasName(f.document.users, u.name)
    ensures r.Ok? <==> f.document.Parsed? && !HasName(f.document.users, u.name) && f.writable
    ensures f.document.Parsed? && !HasName(f.document.users, u.name) && !f.writable ==>
      r == Err(JsonFailure(JsonOperator.WriteErrorMessage))
    ensures r.Ok? ==> r.value.writable
    ensures r.Ok? ==> f.document.Parsed? && r.value.document == JsonOperator.Parsed(f.document.users + [u])
  {
    match JsonOperator.ReadFile(f)
    case Err(e) => Err(e)
    case Ok(users) =>
      match AddToList(users, u)
      case Err(e) => Err(e)
      case Ok(changed) => JsonOperator.WriteToFile(f, changed)
  }

  /** Read, replace the first entry with the name, write back. */
  function JsonUpdate(f: JsonOperator.JsonFile, u: User): (r: Result<JsonOperator.JsonFile>)
    ensures r.Err? ==> r.error == NoSuchUser || r.error.JsonFailure?
    ensures !f.document.Parsed? ==> r == Err(JsonFailure(JsonOperator.ReadErrorMessage))
    ensures r == Err(NoSuchUser) <==> f.document.Parsed? && !HasName(f.document.users, u.name)
    ensures r.Ok? <==> f.document.Parsed? && HasName(f.document.users, u.name) && f.writable
    ensures f.document.Parsed? && HasName(f.document.users, u.name) && !f.writable ==>
      r == Err(JsonFailure(JsonOperator.WriteErrorMessage))
    ensures r.Ok? ==> r.value.writable
    ensures r.Ok? ==> (f.document.Parsed? &&
      r.value.document == JsonOperator.Parsed(ReplaceFirst(f.document.users, u).value))
  {
    match JsonOperator.ReadFile(f)
    case Err(e) => Err(e)
    case Ok(users) =>
      match ReplaceFirst(users, u)
      case Err(e) => Err(e)
      case Ok(changed) => JsonOperator.WriteToFile(f, changed)
  }

  /** Read, remove the first entry with the name, write back. */
  function JsonDelete(f: JsonOperator.JsonFile, name: string): (r: Result<JsonOperator.JsonFile>)
    ensures r.Err? ==> r.error == NoSuchUser || r.error.JsonFailure?
    ensures !f.document.Parsed? ==> r == Err(JsonFailure(JsonOperator.ReadErrorMessage))
    ensures r == Err(NoSuchUser) <==> f.document.Parsed? && !HasName(f.document.users, name)
    ensures r.Ok? <==> f.document.Parsed? && HasName(f.document.users, name) && f.writable
    ensures f.document.Parsed? && HasName(f.document.users, name) && !f.writable ==>
      r == Err(JsonFailure(JsonOperator.WriteErrorMessage))
    ensures r.Ok? ==> r.value.writable
    ensures r.Ok? ==> (f.document.Parsed? &&
      r.value.document == JsonOperator.Parsed(RemoveFirst(f.document.users, name).value))
  {
    match JsonOperator.ReadFile(f)
    case Err(e) => Err(e)
    case Ok(users) =>
      match RemoveFirst(users, name)
      case Err(e) => Err(e)
      case Ok(changed) => JsonOperator.WriteToFile(f, changed)
  }

  // ---------------------------------------------------------------------
  // The public operations: dispatch on the operator's class
  // ---------------------------------------------------------------------

  function GetUserByName(c: Configured, name: string): (r: Result<Nullable<User>>)
    ensures c.Unrecognised? ==> r == Ok(Null)
    ensures c.Known? && r.Ok? ==> r.value.NonNull? && r.value.value.name == name
    ensures c.Known? && c.backend.Sql? ==>
      r.Ok? == SqlOperator.GetByKey(c.backend.table, name).Ok? &&
      (r.Ok? ==> r.value.value == SqlOperator.GetByKey(c.backend.table, name).value) &&
      (r.Err? ==> r.error == SqlOperator.GetByKey(c.backend.table, name).error)
    ensures c.Known? && c.backend.Json? ==>
      r.Ok? == JsonGetUserByName(c.backend.file, name).Ok? &&
      (r.Ok? ==> r.value.value == JsonGetUserByName(c.backend.file, name).value) &&
      (r.Err? ==> r.error == JsonGetUserByName(c.backend.file, name).error)
    ensures c.Known? && c.backend.Json? && c.backend.file.document.Parsed? ==>
      (r == Err(NoSuchUser) <==> !HasName(c.backend.file.document.users, name))
  {
    match c
    case Unrecognised => Ok(Null)
    case Known(b) =>
      match b
      case Sql(_) =>
        (match DataOperator.GetByKey(b, name)
         case Ok(u) => Ok(NonNull(u))
         case Err(e) => Err(e))
      case Json(f) =>
        (match JsonGetUserByName(f, name)
         case Ok(u) => Ok(NonNull(u))
         case Err(e) => Err(e))
  }

  function GetAll(c: Configured): (r: Result<seq<User>>)
    ensures c.Unrecognised? ==> r == Ok([])
    ensures c.Known? && c.backend.Sql? ==> r == SqlOperator.GetAll(c.backend.table)
    ensures c.Known? && c.backend.Json? ==> r == JsonOperator.ReadFile(c.backend.file)
  {
    match c
    case Unrecognised => Ok([])
    case Known(b) =>
      match b
      case Sql(_) => DataOperator.GetAll(b)
      case Json(_) => DataOperator.ReadFile(b)
  }

  function Save(c: Configured, u: User): (r: Result<Configured>)
    ensures c.Unrecognised? ==> r == Ok(c)
    ensures r.Ok? ==> r.value.Known? == c.Known?
    ensures c.Known? && r.Ok? ==> r.value.backend.Sql? == c.backend.Sql?
    ensures c.Known? && r.Err? ==> r.error == UserAlreadyExists || !r.error.IsDomainSignal()
    ensures c.Known? && c.backend.Sql? ==>
      r.Ok? == SqlOperator.Post(c.backend.table, u).Ok? &&
      (r.Ok? ==> r.value == Known(Sql(SqlOperator.Post(c.backend.table, u).value))) &&
      (r.Err? ==> r.error == SqlOperator.Post(c.backend.table, u).error)
    ensures c.Known? && c.backend.Json? ==>
      r.Ok? == JsonSave(c.backend.file, u).Ok? &&
      (r.Ok? ==> r.value == Known(Json(JsonSave(c.backend.file, u).value))) &&
      (r.Err? ==> r.error == JsonSave(c.backend.file, u).error)
  {
    match c
    case Unrecognised => Ok(c)
    case Known(b) =>
      match b
      case Sql(_) =>
        (match DataOperator.Post(b, u)
         case Ok(b') => Ok(Known(b'))
         case Err(e) => Err(e))
      case Json(f) =>
        (match JsonSave(f, u)
         case Ok(f') => Ok(Known(Json(f')))
         case Err(e) => Err(e))
  }

  function Update(c: Configured, u: User): (r: Result<Configured>)
    ensures c.Unrecognised? ==> r == Ok(c)
    ensures r.Ok? ==> r.value.Known? == c.Known?
    ensures c.Known? && r.Ok? ==> r.value.backend.Sql? == c.backend.Sql?
    ensures c.Known? && r.Err? ==> r.error == NoSuchUser || !r.error.IsDomainSignal()
    ensures c.Known? && c.backend.Sql? ==>
      r.Ok? == SqlOperator.Update(c.backend.table, u.name, u).Ok? &&
      (r.Ok? ==> r.value == Known(Sql(SqlOperator.Update(c.backend.table, u.name, u).value))) &&
      (r.Err? ==> r.error == SqlOperator.Update(c.backend.table, u.name, u).error)
    ensures c.Known? && c.backend.Json? ==>
      r.Ok? == JsonUpdate(c.backend.file, u).Ok? &&
      (r.Ok? ==> r.value == Known(Json(JsonUpdate(c.backend.file, u).value))) &&
      (r.Err? ==> r.error == JsonUpdate(c.backend.file, u).error)
  {
    match c
    case Unrecognised => Ok(c)
    case Known(b) =>
      match b
      case Sql(_) =>
        (match DataOperator.Update(b, u.name, u)
         case Ok(b') => Ok(Known(b'))
         case Err(e) => Err(e))
      case Json(f) =>
        (match JsonUpdate(f, u)
         case Ok(f') => Ok(Known(Json(f')))
         case Err(e) => Err(e))
  }

  function Delete(c: Configured, name: string): (r: Result<Configured>)
    ensures c.Unrecognised? ==> r == Ok(c)
    ensures r.Ok? ==> r.value.Known? == c.Known?
    ensures c.Known? && r.Ok? ==> r.value.backend.Sql? == c.backend.Sql?
    ensures c.Known? && r.Err? ==> r.error == NoSuchUser || !r.error.IsDomainSignal()
    ensures c.Known? && c.backend.Sql? ==>
      r.Ok? == SqlOperator.Delete(c.backend.table, name).Ok? &&
      (r.Ok? ==> r.value == Known(Sql(SqlOperator.Delete(c.backend.table, name).value))) &&
      (r.Err? ==> r.error == SqlOperator.Delete(c.backend.table, name).error)
    ensures c.Known? && c.backend.Json? ==>
      r.Ok? == JsonDelete(c.backend.file, name).Ok? &&
      (r.Ok? ==> r.value == Known(Json(JsonDelete(c.backend.file, name).value))) &&
      (r.Err? ==> r.error == JsonDelete(c.backend.file, name).error)
  {
    match c
    case Unrecognised => Ok(c)
    case Known(b) =>
      match b
      case Sql(_) =>
        (match DataOperator.Delete(b, name)
         case Ok(b') => Ok(Known(b'))
         case Err(e) => Err(e))
      case Json(f) =>
        (match JsonDelete(f, name)
         case Ok(f') => Ok(Known(Json(f')))
         case Err(e) => Err(e))
  }

  // ---------------------------------------------------------------------
  // Properties across operations
  // ---------------------------------------------------------------------

  /** The store's invariant: names are unique in the file or in the table. */
  ghost predicate NamesUnique(c: Configured) {
    match c
    case Unrecognised => true
    case Known(Sql(t)) => SqlOperator.KeysUnique(t.rows)
    case Known(Json(f)) => f.document.Parsed? ==> UniqueNames(f.document.users)
  }

  /** Save, update and delete keep names unique, on either backend. */
  lemma OperationsKeepNamesUnique(c: Configured, u: User, name: string)
    requires NamesUnique(c)
    ensures Save(c, u).Ok? ==> NamesUnique(Save(c, u).value)
    ensures Update(c, u).Ok? ==> NamesUnique(Update(c, u).value)
    ensures Delete(c, name).Ok? ==> NamesUnique(Delete(c, name).value)
  {
    match c
    case Unrecognised =>
    case Known(Sql(t)) =>
      SqlOperator.OperationsKeepKeysUnique(t, u.name, u);
      SqlOperator.OperationsKeepKeysUnique(t, name, u);
    case Known(Json(f)) =>
      if f.document.Parsed? {
        ListChangesKeepNamesUnique(f.document.users, u, name);
      }
  }

  lemma FirstIndexPastOldEntries(users: seq<User>, u: User)
    requires !HasName(users, u.name)
    ensures FirstIndex(users + [u], u.name) == |users|
  {
    var i := FirstIndex(users + [u], u.name);
    assert (users + [u])[|users|].name == u.name;
  }

  /** A saved user is found again by its name, on either backend. */
  lemma SaveThenGetUserByName(c: Configured, u: User)
    requires c.Known?
    requires Save(c, u).Ok?
    ensures GetUserByName(Save(c, u).value, u.name) == Ok(NonNull(u))
  {
    match c.backend
    case Sql(t) =>
      SqlOperator.PostThenGetByKey(t, u);
    case Json(f) =>
      var users := f.document.users;
      FirstIndexPastOldEntries(users, u);
  }

  /** On either backend, a second delete of the same name fails with
      NoSuchUser, provided names were unique. */
  lemma DeleteTwiceFails(c: Configured, name: string)
    requires c.Known?
    requires NamesUnique(c)
    requires Delete(c, name).Ok?
    ensures Delete(Delete(c, name).value, name) == Err(NoSuchUser)
  {
    match c.backend
    case Sql(t) =>
      SqlOperator.DeleteTwiceFails(t, name);
    case Json(f) =>
      RemovedNameIsGone(f.document.users, name);
  }

  /** Saving a name already present fails and changes nothing. */
  lemma SaveExistingFails(c: Configured, u: User)
    requires c.Known?
    requires c.backend.Sql? ==>
      (forall i :: 0 <= i < |SqlOperator.UserFields| ==> SqlOperator.UserFields[i] in c.backend.table.columns) &&
      SqlOperator.CountKey(c.backend.table.rows, u.name) > 0
    requires c.backend.Json? ==>
      c.backend.file.document.Parsed? && HasName(c.backend.file.document.users, u.name)
    ensures Save(c, u) == Err(UserAlreadyExists)
  {
  }
}

=== FILE: user_status.dfy ===
/** The two account roles and their display strings. */
module UserStatus {

  datatype Status = Admin | JustUser

  /** The string each constant's `toString` returns. It is the form the
      relational backend stores in the `status` column. */
  function ToString(s: Status): (r: string)
    ensures r == "admin" <==> s == Admin
    ensures r == "just_user" <==> s == JustUser
  {
    match s
    case Admin => "admin"
    case JustUser => "just_user"
  }

  /** Different constants never share a display string. */
  lemma ToStringInjective(a: Status, b: Status)
    ensures ToString(a) == ToString(b) ==> a == b
  {
  }
}
